=== FILE: README.md ===
# Picture-in-picture sample: stopwatch engine and PiP decisions in Dafny

This project models the decision core of the Android picture-in-picture (PiP)
sample app:

- the stopwatch engine `TimerRepository`, with its "MM:SS:HH" display text;
- `MainViewModel`, a second copy of that engine, shown to agree with it on every trace;
- `TestTimeProvider`, the settable clock the engine tests drive it with;
- `PipCompatibilityManager`: SDK feature predicates and the guarded PiP entry;
- `MainActivity`: control codes, overlay actions, PiP parameters, button visibility and the PiP button;
- `MovieActivity`: the two-step playlist behind the skip buttons, the published media actions,
  the PiP aspect choice, control visibility and the `minimize` guard.

Time is an explicit clock reading `now` passed to each operation. The frame
the update loop waits for is an explicit `FrameAt(now)` event. The coroutine
behind the loop becomes two fields: the state of the job the engine last
launched, and the number of live update loops. A frame changes the engine only
through a live loop. Kotlin's `Long` division and remainder truncate toward
zero; `KotlinText.Quot` and `KotlinText.Rem` model that, and `Long.toString`
and `padStart` are written out in full.

Modules, one per file: `Nullable` (option type), `KotlinText`,
`StopwatchFormat`, `TimerRepository`, `MainViewModel`, `TestTimeProvider`,
`PipCompatibility`, `MainActivity`, `MovieActivity`.

The minutes field is left-padded to two digits and never reduced, so for a
non-negative reading from 100 minutes on the display is wider than "dd:dd:dd"
(`StopwatchFormat.ClockShapeBelowHundredMinutes`).

## Model

| member | source | states |
|---|---|---|
| KotlinText.Quot | app/src/main/java/com/example/android/pictureinpicture/repository/TimerRepository.kt:38 | Kotlin's `Long` quotient: never negative for a non-negative dividend, never positive for a non-positive one |
| KotlinText.Rem | app/src/main/java/com/example/android/pictureinpicture/repository/TimerRepository.kt:40-42 | Kotlin's `Long` remainder: the dividend is divisor times quotient plus remainder, the remainder is smaller than the divisor in size and has the dividend's sign |
| KotlinText.NaturalToString | app/src/main/java/com/example/android/pictureinpicture/repository/TimerRepository.kt:39 | `toString` of a non-negative value is a non-empty string of digits with no leading zero |
| KotlinText.LongToString | app/src/main/java/com/example/android/pictureinpicture/repository/TimerRepository.kt:39 | `toString` of a non-negative value is its digits; of a negative value, a minus sign followed by the digits of its magnitude |
| KotlinText.PadStart | app/src/main/java/com/example/android/pictureinpicture/repository/TimerRepository.kt:39 | `padStart(2, '0')` makes the text at least two long; `KotlinText.PadStartKeepsText` states that the text ends the result and only pad characters precede it |
| KotlinText.ParseNaturalToString | app/src/main/java/com/example/android/pictureinpicture/repository/TimerRepository.kt:39 | reading back the printed digits gives the original value |
| KotlinText.PadStartKeepsText | app/src/main/java/com/example/android/pictureinpicture/repository/TimerRepository.kt:39 | `padStart` keeps the text at the end and fills only the front with the pad character |
| KotlinText.ParseDigitsIgnoresLeadingZeros | app/src/main/java/com/example/android/pictureinpicture/repository/TimerRepository.kt:39 | the zero padding does not change the value a field reads as |
| KotlinText.NaturalToStringAtMostTwo | app/src/main/java/com/example/android/pictureinpicture/repository/TimerRepository.kt:38-39 | a value prints in at most two characters exactly when it is below 100 |
| StopwatchFormat.ParseFormat | app/src/main/java/com/example/android/pictureinpicture/repository/TimerRepository.kt:37-44 | for every non-negative reading the display parses back to its minutes, seconds below 60 and hundredths below 100, which recompose the reading minus its last millisecond digit |
| StopwatchFormat.FieldsRecompose | app/src/main/java/com/example/android/pictureinpicture/repository/TimerRepository.kt:38-43 | minutes times 60000 plus seconds times 1000 plus hundredths times 10 is the reading minus its last digit |
| StopwatchFormat.FieldsOfNatural | app/src/main/java/com/example/android/pictureinpicture/repository/TimerRepository.kt:38-43 | on a non-negative reading Kotlin's nested truncating divisions give the plain minutes, seconds and hundredths |
| StopwatchFormat.ClockShapeBelowHundredMinutes | app/src/main/java/com/example/android/pictureinpicture/repository/TimerRepository.kt:38-44 | a non-negative reading shows the shape "dd:dd:dd" exactly when it is below 6,000,000 ms; beyond that the display is longer, because minutes are padded and not wrapped |
| StopwatchFormat.FormatSameIffSameHundredths | app/src/main/java/com/example/android/pictureinpicture/repository/TimerRepository.kt:37-44 | two non-negative readings show the same text exactly when they have the same number of hundredths |
| StopwatchFormat.Format | app/src/main/java/com/example/android/pictureinpicture/repository/TimerRepository.kt:37-44 | the formatter itself; its behaviour is stated by `StopwatchFormat.ParseFormat` (round trip), `StopwatchFormat.ClockShapeBelowHundredMinutes` (shape) and `StopwatchFormat.FormatSameIffSameHundredths` (what it distinguishes) |
| StopwatchFormat.Field | app/src/main/java/com/example/android/pictureinpicture/repository/TimerRepository.kt:39-43 | one field, `toString().padStart(2, '0')`; `StopwatchFormat.FieldOfNatural` states it is the digits of a non-negative value padded to at least two and reads back as that value, and `StopwatchFormat.FieldsOfNatural` which values the three fields receive |
| StopwatchFormat.FormatExamples | app/src/main/java/com/example/android/pictureinpicture/repository/TimerRepository.kt:37-44 | 0, 1000, 65000, 1050 and 599990 ms show as 00:00:00, 00:01:00, 01:05:00, 00:01:05 and 09:59:99 |
| StopwatchFormat.ShowsZero | app/src/main/java/com/example/android/pictureinpicture/repository/TimerRepository.kt:48 | a zero reading shows "00:00:00", the initial display |
| StopwatchFormat.MinusOneSecondText | app/src/main/java/com/example/android/pictureinpicture/repository/TimerRepository.kt:38-44 | a reading of -1000 ms shows "00:-1:00": truncating division puts the sign in the seconds field |
| StopwatchFormat.Parse | app/src/main/java/com/example/android/pictureinpicture/repository/TimerRepository.kt:44 | a text is read back only if it is at least 8 long with colons 3 and 6 places from its end; the seconds and hundredths read back are below 100; `StopwatchFormat.ParseJoined` states that digit fields joined by colons read back as their values |
| TimerRepository.New | app/src/main/java/com/example/android/pictureinpicture/repository/TimerRepository.kt:31-34 | a new engine is stopped, at zero elapsed time, measuring from the clock reading at construction, with no loop alive |
| TimerRepository.Display | app/src/main/java/com/example/android/pictureinpicture/repository/TimerRepository.kt:37-49 | the published `time` text, the formatter applied to the elapsed time; `TimerRepository.ZeroDisplays` states it starts and clears to "00:00:00", and `StopwatchFormat.ParseFormat` that it reads back as the elapsed time |
| TimerRepository.ZeroDisplays | app/src/main/java/com/example/android/pictureinpicture/repository/TimerRepository.kt:48-78 | a new engine and a cleared one both show "00:00:00" |
| TimerRepository.StartOrPause | app/src/main/java/com/example/android/pictureinpicture/repository/TimerRepository.kt:54-66 | the flag flips and the elapsed time is kept; a start moves the reference to `now` minus the elapsed time and launches a loop; a pause cancels the job and launches nothing |
| TimerRepository.Frame | app/src/main/java/com/example/android/pictureinpicture/repository/TimerRepository.kt:66-69 | with a live loop the elapsed time becomes `now` minus the reference; without one nothing changes |
| TimerRepository.Clear | app/src/main/java/com/example/android/pictureinpicture/repository/TimerRepository.kt:75-78 | elapsed becomes 0 and the reference `now`; the flag, the job and the loops are untouched |
| TimerRepository.RunKeepsValid | app/src/main/java/com/example/android/pictureinpicture/repository/TimerRepository.kt:54-70 | under any trace exactly one loop is alive, the one the engine holds, while started, and none while stopped |
| TimerRepository.FrameOnlyWhileStarted | app/src/main/java/com/example/android/pictureinpicture/repository/TimerRepository.kt:54-69 | a frame leaves a stopped engine unchanged and changes only the elapsed time of a started one |
| TimerRepository.StartedFollowsToggleParity | app/src/main/java/com/example/android/pictureinpicture/repository/TimerRepository.kt:54-62 | after any trace the flag has flipped exactly when the trace holds an odd number of `startOrPause` calls |
| TimerRepository.TogglesFromFresh | app/src/test/java/com/example/android/pictureinpicture/repository/TimerRepositoryTest.kt:160-173 | after N `startOrPause` calls from a new engine it is started exactly when N is odd |
| TimerRepository.ResumeContinuity | app/src/main/java/com/example/android/pictureinpicture/repository/TimerRepository.kt:65-67 | after a start at `t0` a frame at `t1` shows the earlier elapsed time plus `t1 - t0`; a frame at `t0` changes nothing |
| TimerRepository.ClearWhileRunning | app/src/test/java/com/example/android/pictureinpicture/repository/TimerRepositoryTest.kt:104-115 | a cleared running engine keeps running and counts from the instant of the clear |
| TimerRepository.StoppedOnlyClearChangesElapsed | app/src/main/java/com/example/android/pictureinpicture/repository/TimerRepository.kt:54-78 | while stopped and without `startOrPause`, the engine stays stopped and its elapsed time is 0 if the trace clears and unchanged otherwise |
| TimerRepository.StepKeepsAnchor | app/src/main/java/com/example/android/pictureinpicture/repository/TimerRepository.kt:64-78 | an event at a reading no earlier than the last keeps the loop discipline, a non-negative elapsed time equal to the time since the reference while running, and lowers the time only by clearing |
| TimerRepository.ForwardClockKeepsAnchor | app/src/main/java/com/example/android/pictureinpicture/repository/TimerRepository.kt:66-68 | with a clock that never goes back, the elapsed time is never negative and never decreases between clears |
| TimerRepository.FreshEngineNeverNegative | app/src/main/java/com/example/android/pictureinpicture/repository/TimerRepository.kt:31-78 | a new engine driven by a clock that never goes back never shows a negative time |
| MainViewModel.Create | app/src/main/java/com/example/android/pictureinpicture/MainViewModel.kt:39-44 | a new view model is stopped at zero elapsed time |
| MainViewModel.ZeroTimes | app/src/main/java/com/example/android/pictureinpicture/MainViewModel.kt:58-89 | a new and a cleared view model both publish "00:00:00" |
| MainViewModel.Time | app/src/main/java/com/example/android/pictureinpicture/MainViewModel.kt:47-59 | the view model's `time` text; `MainViewModel.ZeroTimes` states it starts and clears to "00:00:00", and `MainViewModel.SameAsRepository` that it always equals the repository's display |
| MainViewModel.StartOrPause | app/src/main/java/com/example/android/pictureinpicture/MainViewModel.kt:64-75 | the flag flips and the elapsed time is kept; a start makes reference plus elapsed equal `now` and adds a loop; a pause adds none |
| MainViewModel.AwaitFrame | app/src/main/java/com/example/android/pictureinpicture/MainViewModel.kt:76-80 | with a live loop the elapsed time plus the reference is `now`; without one nothing changes |
| MainViewModel.Clear | app/src/main/java/com/example/android/pictureinpicture/MainViewModel.kt:86-89 | elapsed becomes 0 and the reference `now`, the flag untouched |
| MainViewModel.HandleMatchesRepository | app/src/main/java/com/example/android/pictureinpicture/MainViewModel.kt:64-89 | each view-model operation does to the state what the repository's operation does |
| MainViewModel.SameAsRepository | app/src/main/java/com/example/android/pictureinpicture/MainViewModel.kt:39-89 | created at the same reading and fed the same events, the view model and the repository hold the same state, flag and display text |
| MainViewModel.TogglesFromCreation | app/src/main/java/com/example/android/pictureinpicture/MainViewModel.kt:64-72 | after N `startOrPause` calls from creation the view model is started exactly when N is odd |
| TestTimeProvider.Fresh | app/src/test/java/com/example/android/pictureinpicture/util/TestTimeProvider.kt:8 | a new provider reads 0 |
| TestTimeProvider.AdvanceTime | app/src/test/java/com/example/android/pictureinpicture/util/TestTimeProvider.kt:13-15 | the next reading differs from the last by exactly the amount advanced |
| TestTimeProvider.SetTime | app/src/test/java/com/example/android/pictureinpicture/util/TestTimeProvider.kt:17-19 | the next reading is the value set, whatever it was before |
| TestTimeProvider.Reset | app/src/test/java/com/example/android/pictureinpicture/util/TestTimeProvider.kt:21-23 | after a reset the provider is as a new one |
| TestTimeProvider.UptimeMillis | app/src/test/java/com/example/android/pictureinpicture/util/TestTimeProvider.kt:11 | reading the clock returns the stored time and changes nothing; stated through `TestTimeProvider.Fresh`, `AdvanceTime`, `SetTime` and `ClockLaws` |
| TestTimeProvider.ClockLaws | app/src/test/java/com/example/android/pictureinpicture/util/TestTimeProvider.kt:11-23 | advances add up, advancing by 0 or back and forth changes nothing, setting overrides an advance, and reset is setting 0 |
| TestTimeProvider.DriveIsRun | app/src/test/java/com/example/android/pictureinpicture/util/TestTimeProvider.kt:11-19 | driving the engine with the test clock is running it on the events stamped with the clock's readings |
| TestTimeProvider.ForwardScriptStampsForward | app/src/test/java/com/example/android/pictureinpicture/util/TestTimeProvider.kt:13-15 | a script that only advances forward stamps its engine calls with readings that never go back |
| TestTimeProvider.ForwardTestNeverNegative | app/src/test/java/com/example/android/pictureinpicture/util/TestTimeProvider.kt:13-15 | a test that only advances the clock forward never sees a negative elapsed time, whatever it calls |
| TestTimeProvider.PauseResumeScenario | app/src/main/java/com/example/android/pictureinpicture/repository/TimerRepository.kt:54-70 | start, run 1000 ms, pause, wait 4000 ms, resume and run 1000 ms: the time reads 1000, stays 1000 while paused, and ends at 2000 |
| TestTimeProvider.BackwardClockGoesNegative | app/src/test/java/com/example/android/pictureinpicture/util/TestTimeProvider.kt:17-19 | setting the clock back while the stopwatch runs makes the elapsed time negative |
| PipCompatibility.CanEnterPictureInPicture | app/src/main/java/com/example/android/pictureinpicture/util/PipCompatibilityManager.kt:29-39 | PiP can be entered exactly when the SDK is at least 26 and the device has the PiP feature |
| PipCompatibility.HasPictureInPictureSupport | app/src/main/java/com/example/android/pictureinpicture/util/PipCompatibilityManager.kt:17-19 | PiP support from SDK 26 on; related to the other levels by `PipCompatibility.SupportLevels` |
| PipCompatibility.HasRemoteActionSupport | app/src/main/java/com/example/android/pictureinpicture/util/PipCompatibilityManager.kt:21-23 | remote actions from SDK 26 on; `PipCompatibility.SupportLevels` states it equals PiP support |
| PipCompatibility.HasEnhancedPictureInPictureSupport | app/src/main/java/com/example/android/pictureinpicture/util/PipCompatibilityManager.kt:85-87 | the Android 12 features from SDK 31 on; `PipCompatibility.SupportLevels` states they imply PiP support |
| PipCompatibility.SupportLevels | app/src/main/java/com/example/android/pictureinpicture/util/PipCompatibilityManager.kt:17-87 | remote-action support is the same as PiP support; enhanced support and the ability to enter each imply PiP support |
| PipCompatibility.EnterPictureInPictureEntry | app/src/main/java/com/example/android/pictureinpicture/util/PipCompatibilityManager.kt:45-71 | nothing is tried when PiP cannot be entered; success is reported exactly when neither provider nor platform throws, after the call with the parameters exactly when the provider gives them; the platform's Boolean answer is kept but ignored; a caught failure is the one thrown |
| PipCompatibility.EnterPictureInPictureSafely | app/src/main/java/com/example/android/pictureinpicture/util/PipCompatibilityManager.kt:45-71 | returns true exactly when PiP can be entered and neither the provider nor the platform throws |
| PipCompatibility.RefusalReportedAsSuccess | app/src/main/java/com/example/android/pictureinpicture/util/PipCompatibilityManager.kt:54-63 | the platform's answer to `enterPictureInPictureMode(params)` never changes the result: a refusal that does not throw is reported as success |
| PipCompatibility.EnterSafelyIgnoresParamsKind | app/src/main/java/com/example/android/pictureinpicture/util/PipCompatibilityManager.kt:45-71 | the guarded entry gives the same answer whether the provider returns PiP parameters or another object; the iff itself is the contract of `PipCompatibility.EnterPictureInPictureSafely` |
| PipCompatibility.StatusMessageRes | app/src/main/java/com/example/android/pictureinpicture/util/PipCompatibilityManager.kt:73-79 | the message is "requires API 26" exactly when PiP is unsupported, else "available" |
| MainActivity.ReceivedCommand | app/src/main/java/com/example/android/pictureinpicture/MainActivity.kt:78-86 | a null intent or another action is ignored; start/pause exactly for control code 2 and clear exactly for control code 1 |
| MainActivity.OnReceive | app/src/main/java/com/example/android/pictureinpicture/MainActivity.kt:78-86 | the receiver performs exactly the operation the command names, and nothing for an ignored broadcast |
| MainActivity.CreateRemoteAction | app/src/main/java/com/example/android/pictureinpicture/MainActivity.kt:258-280 | an action is built exactly when remote actions are supported |
| MainActivity.ListOfNotNull | app/src/main/java/com/example/android/pictureinpicture/MainActivity.kt:196-222 | a value is in the result exactly when it is present in the input; the result is never longer than the input, holds all of them in order when all are present and none when none are; order and count for mixed inputs are `MainActivity.ListOfNotNullAppend` and `MainActivity.ListOfNotNullSplit` |
| MainActivity.ListOfNotNullAppend | app/src/main/java/com/example/android/pictureinpicture/MainActivity.kt:196-222 | filtering a concatenation is the concatenation of the filtered parts, so present elements keep their order and their count |
| MainActivity.ListOfNotNullSingle | app/src/main/java/com/example/android/pictureinpicture/MainActivity.kt:196-222 | a single present element is kept and a single absent one is dropped |
| MainActivity.ListOfNotNullSplit | app/src/main/java/com/example/android/pictureinpicture/MainActivity.kt:196-222 | at any position the result is the filtered front, then the element itself exactly when it is present, then the filtered back; this fixes the result for inputs that mix present and absent elements |
| MainActivity.Actions | app/src/main/java/com/example/android/pictureinpicture/MainActivity.kt:196-222 | two actions from SDK 26 on, none before; their content is stated by `MainActivity.ParamsShape` |
| MainActivity.UpdatePictureInPictureParams | app/src/main/java/com/example/android/pictureinpicture/MainActivity.kt:187-252 | no parameters exactly when PiP is unsupported |
| MainActivity.ParamsShape | app/src/main/java/com/example/android/pictureinpicture/MainActivity.kt:187-252 | two actions, clear first (request 3, control 1) and start/pause second (request 4, control 2, pause exactly while started); aspect 16:9; seamless resize off exactly from SDK 31; auto-enter and source hint exactly with enhanced support |
| MainActivity.ActionsDispatchToTheirOperation | app/src/main/java/com/example/android/pictureinpicture/MainActivity.kt:78-222 | tapping the first overlay action clears and tapping the second starts or pauses, through a registered receiver |
| MainActivity.ReceiverRegistered | app/src/main/java/com/example/android/pictureinpicture/MainActivity.kt:161-163 | the overlay receiver is registered exactly where remote actions exist; `MainActivity.ActionsDispatchToTheirOperation` states it is registered wherever the overlay actions are built |
| MainActivity.OverlayFollowsToggle | app/src/main/java/com/example/android/pictureinpicture/MainActivity.kt:128-222 | after the start/pause action is tapped the rebuilt overlay offers the opposite action |
| MainActivity.OnPictureInPictureModeChanged | app/src/main/java/com/example/android/pictureinpicture/MainActivity.kt:167-181 | the in-app buttons are hidden exactly while in PiP |
| MainActivity.PipButtonVisibility | app/src/main/java/com/example/android/pictureinpicture/MainActivity.kt:142-148 | the PiP button is visible exactly where PiP is supported |
| MainActivity.StartOrPauseIcon | app/src/main/java/com/example/android/pictureinpicture/MainActivity.kt:131-133 | the pause icon shows exactly while started, the play icon exactly while stopped |
| MainActivity.PipClickOutcomes | app/src/main/java/com/example/android/pictureinpicture/MainActivity.kt:97-115 | below SDK 26 "requires API 26" and no attempt; without the feature "disabled"; a thrown failure "failed"; otherwise no message and success reported with parameters, even when the platform refuses without throwing |
| MainActivity.ParamsSupplyFor | app/src/main/java/com/example/android/pictureinpicture/MainActivity.kt:108-110 | the parameter provider handed to the guarded entry yields PiP parameters exactly where the screen builds them; `MainActivity.PipClickOutcomes` states that a successful click therefore always enters with parameters |
| MainActivity.OnPipClick | app/src/main/java/com/example/android/pictureinpicture/MainActivity.kt:97-115 | no message exactly when success is reported; below SDK 26 the status message and no attempt |
| MainActivity.OverlayStandsInForButtons | app/src/main/java/com/example/android/pictureinpicture/MainActivity.kt:167-222 | a summary that restates, side by side, `OnPictureInPictureModeChanged`'s contract and `ActionsDispatchToTheirOperation`: in PiP the in-app buttons are gone while the overlay's two actions clear and start or pause; outside PiP the buttons are back |
| MainActivity.IconMatchesOverlay | app/src/main/java/com/example/android/pictureinpicture/MainActivity.kt:131-221 | the in-app start/pause icon is always the overlay's start/pause icon |
| MainActivity.PipButtonOnlyWhereUsable | app/src/main/java/com/example/android/pictureinpicture/MainActivity.kt:97-148 | the PiP button is shown exactly where a tap on it does not answer that API 26 is needed; where hidden, a tap would not attempt entry |
| MovieActivity.InitializeMediaSession | app/src/main/java/com/example/android/pictureinpicture/MovieActivity.kt:146-332 | a new session starts at index 1 with every action offered, playing exactly when the movie is |
| MovieActivity.UpdatePlaybackState | app/src/main/java/com/example/android/pictureinpicture/MovieActivity.kt:301-308 | the state changes to the one given; the actions and the index stay |
| MovieActivity.OnSkipToNext | app/src/main/java/com/example/android/pictureinpicture/MovieActivity.kt:342-362 | at the end nothing changes; otherwise the index moves up, PLAYING is published with play/pause and skip-previous, and skip-next exactly when not at the end |
| MovieActivity.OnSkipToPrevious | app/src/main/java/com/example/android/pictureinpicture/MovieActivity.kt:364-384 | at the start nothing changes; otherwise the index moves down, PLAYING is published with play/pause and skip-next, and skip-previous exactly when not at the start |
| MovieActivity.SkipOutcomes | app/src/main/java/com/example/android/pictureinpicture/MovieActivity.kt:342-384 | skips past either end change nothing; reaching 2 drops skip-next, reaching 0 drops skip-previous, any other skip offers everything, and all publish PLAYING |
| MovieActivity.ApplyKeepsActionsMatch | app/src/main/java/com/example/android/pictureinpicture/MovieActivity.kt:84-385 | one skip or playback change keeps the offered actions true to the playlist position |
| MovieActivity.ActionsAlwaysMatchPlaylist | app/src/main/java/com/example/android/pictureinpicture/MovieActivity.kt:68-385 | from any session start and under any events the index stays in 0..2, play/pause is always offered, and skip-next (skip-previous) exactly when there is a next (previous) item |
| MovieActivity.PlaybackChangesKeepActions | app/src/main/java/com/example/android/pictureinpicture/MovieActivity.kt:82-308 | movie start/stop callbacks keep the index and the actions, and the state is PLAYING exactly when the last one was a start |
| MovieActivity.CreatePictureInPictureParams | app/src/main/java/com/example/android/pictureinpicture/MovieActivity.kt:214-237 | a view without a positive size gets 16:9 and no hint; otherwise its own width:height and a hint |
| MovieActivity.ParamsAspectPositive | app/src/main/java/com/example/android/pictureinpicture/MovieActivity.kt:214-237 | the aspect is always positive, and a hint is given exactly when the view's own size is used |
| MovieActivity.ControlsAfterPipChange | app/src/main/java/com/example/android/pictureinpicture/MovieActivity.kt:199-212 | entering PiP hides the controls; leaving it shows them when not playing and leaves them as they were otherwise |
| MovieActivity.ControlsAfterRestart | app/src/main/java/com/example/android/pictureinpicture/MovieActivity.kt:179-185 | outside PiP a restart shows the controls; inside PiP they stay as they were |
| MovieActivity.ControlsShownWhenResumable | app/src/main/java/com/example/android/pictureinpicture/MovieActivity.kt:199-212 | a PiP round trip leaves the controls hidden while playing and shows them while paused |
| MovieActivity.PlayingKeepsControlsHidden | app/src/main/java/com/example/android/pictureinpicture/MovieActivity.kt:199-212 | over any series of mode changes while the video plays, once PiP has been entered the controls stay hidden |
| MovieActivity.HiddenStaysHiddenWhilePlaying | app/src/main/java/com/example/android/pictureinpicture/MovieActivity.kt:203-211 | hidden controls stay hidden under any mode changes while the video plays |
| MovieActivity.LeavingWhilePausedShows | app/src/main/java/com/example/android/pictureinpicture/MovieActivity.kt:206-210 | after any series of mode changes that ends by leaving PiP while paused, the controls show |
| MovieActivity.Minimize | app/src/main/java/com/example/android/pictureinpicture/MovieActivity.kt:245-272 | nothing is attempted unless PiP can be entered; otherwise the guarded entry is made |
| MovieActivity.MinimizeGuard | app/src/main/java/com/example/android/pictureinpicture/MovieActivity.kt:245-272 | nothing happens unless PiP can be entered, and the outer guard ends exactly as the guarded entry alone does |

## Left out

- Coroutines, `StateFlow` and `stateIn(WhileSubscribed(5000))`: the display is the formatter applied to the elapsed time, and the started flag is read directly. A launched loop is assumed to run its first line (the reference rebase) at the `startOrPause` reading.
- The frame scheduler and the platform clocks (`SystemClock`, the system time provider): replaced by the explicit reading `now` and the `FrameAt` event.
- Hilt injection and `MovieViewModel`, which only passes the repository's display text through.
- MediaSession setup, release and metadata; `MovieView` playback itself, including the video restart on every skip.
- `PendingIntent`, `RemoteAction` and `Icon` construction, the receiver's Android registration call, view binding, Toast durations, `Linkify`, immersive full-screen insets and navigation.
- `Rect` geometry, `Rational` normalisation, the concrete `PlaybackStateCompat` bit values, playback position and the speed `1.0f`: action sets are abstract, and an aspect is a pair of integers.
- The manager methods `createPictureInPictureParams`, `setPictureInPictureParamsSafely` and `isActivityInPictureInPictureMode` that `MovieActivity` calls are not part of this model. The video screen's parameters are modelled by their aspect and hint choice only.
- Failures of the platform's set-parameters call in `MainActivity`'s parameter provider: the provider is modelled as returning the parameters it builds.
- `Long` overflow: all integers are unbounded.
- `onUserLeaveHint` has the same guard and call as `minimize`; `MovieActivity.Minimize` stands for both.
- StopwatchFormat.ParseFormat: the round trip is stated for non-negative readings only. A negative reading, reachable only with a clock set backwards, is illustrated by `StopwatchFormat.MinusOneSecondText`.
- StopwatchFormat.ClockShapeBelowHundredMinutes: the shape is stated for non-negative readings only. A negative reading may break the shape ("00:-1:00" for -1000 ms, `StopwatchFormat.MinusOneSecondText`) or keep it ("00:00:00" above -10 ms), so no iff holds there.
- PipCompatibility.EnterPictureInPictureEntry: only exceptions are modelled as failures. A `Throwable` that is not an `Exception` (an `Error`) escapes the `catch (e: Exception)` blocks and reaches the caller; that path is not modelled.

=== FILE: kotlin_text.dfy ===
/**
 The pieces of the Kotlin standard library the stopwatch display is built from:
 `Long` division and remainder (which truncate toward zero, unlike Dafny's
 Euclidean `/` and `%`), `Long.toString()` in base 10, and `String.padStart`.
 A decimal parser is defined alongside as the inverse of `toString`.
 */
module KotlinText {

  /** Quotient of Kotlin's `a / b` on `Long`: rounded toward zero. */
  function Quot(a: int, b: int): (q: int)
    requires b > 0
    ensures a >= 0 ==> 0 <= q
    ensures a <= 0 ==> q <= 0
  {
    if a >= 0 then a / b else -((-a) / b)
  }

  /** Remainder of Kotlin's `a % b` on `Long`: it takes the sign of the dividend. */
  function Rem(a: int, b: int): (r: int)
    requires b > 0
    ensures a == b * Quot(a, b) + r
    ensures -b < r < b
    ensures a >= 0 ==> r >= 0
    ensures a <= 0 ==> r <= 0
  {
    if a >= 0 then a % b else -((-a) % b)
  }

  /** On non-negative operands Kotlin's and Dafny's division agree. */
  lemma QuotRemOfNatural(a: int, b: int)
    requires a >= 0 && b > 0
    ensures Quot(a, b) == a / b && Rem(a, b) == a % b
  {
  }

  predicate IsDigit(c: char) {
    '0' <= c <= '9'
  }

  predicate AllDigits(s: string) {
    forall i :: 0 <= i < |s| ==> IsDigit(s[i])
  }

  function DigitChar(d: int): (c: char)
    requires 0 <= d < 10
    ensures IsDigit(c)
  {
    ('0' as int + d) as char
  }

  function DigitValue(c: char): (d: int)
    requires IsDigit(c)
    ensures 0 <= d < 10
    ensures DigitChar(d) == c
  {
    c as int - '0' as int
  }

  /** `n.toString()` for `n >= 0`: decimal digits, most significant first. */
  function NaturalToString(n: nat): (s: string)
    ensures |s| >= 1
    ensures AllDigits(s)
    ensures |s| > 1 ==> s[0] != '0'
    decreases n
  {
    if n < 10 then [DigitChar(n)] else NaturalToString(n / 10) + [DigitChar(n % 10)]
  }

  /** `n.toString()` for any `Long` value `n`: a minus sign, then the digits of `-n`. */
  function LongToString(n: int): (s: string)
    ensures n >= 0 ==> s == NaturalToString(n)
    ensures n < 0 ==> s == "-" + NaturalToString(-n)
    ensures n < 0 ==> |s| >= 2 && s[0] == '-' && AllDigits(s[1..])
  {
    if n < 0 then "-" + NaturalToString(-n) else NaturalToString(n)
  }

  /** The value of a string of decimal digits (the empty string reads as 0). */
  function ParseDigits(s: string): nat
    requires AllDigits(s)
  {
    if s == [] then 0 else ParseDigits(s[..|s| - 1]) * 10 + DigitValue(s[|s| - 1])
  }

  function Repeat(c: char, k: nat): (s: string)
    ensures |s| == k
  {
    if k == 0 then [] else [c] + Repeat(c, k - 1)
  }

  lemma {:induction false} RepeatContents(c: char, k: nat)
    ensures forall i :: 0 <= i < k ==> Repeat(c, k)[i] == c
  {
    if k > 0 {
      RepeatContents(c, k - 1);
    }
  }

  /** `s.padStart(length, pad)`: `s` itself when already long enough, else `s` behind enough copies of `pad`. */
  function PadStart(s: string, length: nat, pad: char): (r: string)
    ensures |r| == if |s| >= length then |s| else length
  {
    if |s| >= length then s else Repeat(pad, length - |s|) + s
  }

  /** Padding only adds copies of `pad` in front: `s` itself ends the result. */
  lemma PadStartKeepsText(s: string, length: nat, pad: char)
    ensures var r := PadStart(s, length, pad);
            && r[|r| - |s|..] == s
            && forall i :: 0 <= i < |r| - |s| ==> r[i] == pad
  {
    RepeatContents(pad, if |s| >= length then 0 else length - |s|);
  }

  /** Parsing inverts printing: `ParseDigits` reads back the value `NaturalToString` wrote. */
  lemma {:induction false} ParseNaturalToString(n: nat)
    ensures ParseDigits(NaturalToString(n)) == n
    decreases n
  {
    var s := NaturalToString(n);
    if n >= 10 {
      ParseNaturalToString(n / 10);
      assert s[..|s| - 1] == NaturalToString(n / 10);
    }
  }

  /** Leading zeros do not change the value of a digit string. */
  lemma {:induction false} ParseDigitsIgnoresLeadingZeros(k: nat, s: string)
    requires AllDigits(s)
    ensures AllDigits(Repeat('0', k) + s)
    ensures ParseDigits(Repeat('0', k) + s) == ParseDigits(s)
    decreases k, |s|
  {
    var z := Repeat('0', k) + s;
    RepeatContents('0', k);
    assert AllDigits(z) by {
      forall i | 0 <= i < |z| ensures IsDigit(z[i]) {
        if i < k { assert z[i] == '0'; } else { assert z[i] == s[i - k]; }
      }
    }
    if s == [] {
      assert z == Repeat('0', k);
      if k > 0 {
        ParseDigitsIgnoresLeadingZeros(k - 1, s);
        RepeatContents('0', k - 1);
        assert z[..|z| - 1] == Repeat('0', k - 1) + s;
      }
    } else {
      ParseDigitsIgnoresLeadingZeros(k, s[..|s| - 1]);
      assert z[..|z| - 1] == Repeat('0', k) + s[..|s| - 1];
      assert z[|z| - 1] == s[|s| - 1];
    }
  }

  /** A natural number prints in at most two characters exactly when it is below 100. */
  lemma NaturalToStringAtMostTwo(n: nat)
    ensures |NaturalToString(n)| <= 2 <==> n < 100
  {
    if n >= 10 {
      assert |NaturalToString(n)| == |NaturalToString(n / 10)| + 1;
      if n >= 100 {
        assert |NaturalToString(n / 10)| == |NaturalToString(n / 100)| + 1;
      }
    }
  }
}

=== FILE: main_activity.dfy ===
/**
 The decision logic of the stopwatch screen (`MainActivity`): how control codes
 from the PiP overlay buttons reach the view model, which overlay actions and
 PiP parameters are built for the current state, which buttons are shown, and
 what a tap on the PiP button leads to.
 */
module MainActivity {
  import opened Nullable
  import opened PipCompatibility
  import VM = MainViewModel

  const ACTION_STOPWATCH_CONTROL: string := "stopwatch_control"
  const EXTRA_CONTROL_TYPE: string := "control_type"
  const CONTROL_TYPE_CLEAR: int := 1
  const CONTROL_TYPE_START_OR_PAUSE: int := 2
  const REQUEST_CLEAR: int := 3
  const REQUEST_START_OR_PAUSE: int := 4

  /** A broadcast intent: its action and its integer extras. */
  datatype Intent = Intent(action: string, intExtras: map<string, int>)

  /** `intent.getIntExtra(name, default)`. */
  function GetIntExtra(intent: Intent, name: string, default: int): int {
    if name in intent.intExtras then intent.intExtras[name] else default
  }

  /** The view-model operation a broadcast asks for. */
  datatype Command = Ignore | DoStartOrPause | DoClear

  /** The receiver's decision: only "stopwatch_control" broadcasts count, and only codes 1 and 2 do anything. */
  function ReceivedCommand(intent: Option<Intent>): (c: Command)
    ensures intent.None? ==> c == Ignore
    ensures intent.Some? && intent.value.action != ACTION_STOPWATCH_CONTROL ==> c == Ignore
    ensures c == DoStartOrPause <==>
              intent.Some? && intent.value.action == ACTION_STOPWATCH_CONTROL
              && EXTRA_CONTROL_TYPE in intent.value.intExtras
              && intent.value.intExtras[EXTRA_CONTROL_TYPE] == CONTROL_TYPE_START_OR_PAUSE
    ensures c == DoClear <==>
              intent.Some? && intent.value.action == ACTION_STOPWATCH_CONTROL
              && EXTRA_CONTROL_TYPE in intent.value.intExtras
              && intent.value.intExtras[EXTRA_CONTROL_TYPE] == CONTROL_TYPE_CLEAR
  {
    if intent.None? || intent.value.action != ACTION_STOPWATCH_CONTROL then Ignore
    else
      var code := GetIntExtra(intent.value, EXTRA_CONTROL_TYPE, 0);
      if code == CONTROL_TYPE_START_OR_PAUSE then DoStartOrPause
      else if code == CONTROL_TYPE_CLEAR then DoClear
      else Ignore
  }

  /** `broadcastReceiver.onReceive`, at clock reading `now`. */
  function OnReceive(vm: VM.ViewModel, intent: Option<Intent>, now: int): (r: VM.ViewModel)
    ensures ReceivedCommand(intent) == DoStartOrPause ==> r == VM.StartOrPause(vm, now)
    ensures ReceivedCommand(intent) == DoClear ==> r == VM.Clear(vm, now)
    ensures ReceivedCommand(intent) == Ignore ==> r == vm
  {
    match ReceivedCommand(intent)
    case DoStartOrPause => VM.StartOrPause(vm, now)
    case DoClear => VM.Clear(vm, now)
    case Ignore => vm
  }

  /** The overlay receiver is registered only where remote actions exist. */
  predicate ReceiverRegistered(d: Device) {
    HasRemoteActionSupport(d)
  }

  datatype Icon = IcRefresh | IcPause | IcPlayArrow
  datatype Title = ClearTitle | PauseTitle | StartTitle

  /** An overlay button: its look, its pending-intent request code and the broadcast it sends. */
  datatype RemoteAction = RemoteAction(icon: Icon, title: Title, requestCode: int, intent: Intent)

  function ControlIntent(controlType: int): Intent {
    Intent(ACTION_STOPWATCH_CONTROL, map[EXTRA_CONTROL_TYPE := controlType])
  }

  /** `createRemoteAction`: an action on Android 8.0 and later, `null` before. */
  function CreateRemoteAction(d: Device, icon: Icon, title: Title, requestCode: int, controlType: int): (r: Option<RemoteAction>)
    ensures r.Some? <==> d.sdkInt >= O
  {
    if d.sdkInt >= O then Some(RemoteAction(icon, title, requestCode, ControlIntent(controlType))) else None
  }

  /** `listOfNotNull`: the present elements, in order. */
  function ListOfNotNull<T(!new)>(xs: seq<Option<T>>): (r: seq<T>)
    ensures |r| <= |xs|
    ensures (forall i :: 0 <= i < |xs| ==> xs[i].Some?) ==> |r| == |xs| && forall i :: 0 <= i < |r| ==> r[i] == xs[i].value
    ensures forall x :: x in r <==> Some(x) in xs
    ensures (forall i :: 0 <= i < |xs| ==> xs[i].None?) ==> r == []
    decreases |xs|
  {
    if xs == [] then []
    else
      var rest := ListOfNotNull(xs[1..]);
      assert forall x :: Some(x) in xs <==> xs[0] == Some(x) || Some(x) in xs[1..];
      match xs[0]
      case Some(x) => [x] + rest
      case None => rest
  }

  /** Present elements keep their order and count: filtering a concatenation filters each part. */
  lemma {:induction false} ListOfNotNullAppend<T(!new)>(ys: seq<Option<T>>, zs: seq<Option<T>>)
    ensures ListOfNotNull(ys + zs) == ListOfNotNull(ys) + ListOfNotNull(zs)
    decreases |ys|
  {
    if ys != [] {
      var xs := ys + zs;
      assert xs[0] == ys[0] && xs[1..] == ys[1..] + zs;
      ListOfNotNullFirst(xs);
      ListOfNotNullFirst(ys);
      ListOfNotNullAppend(ys[1..], zs);
    } else {
      assert ys + zs == zs;
    }
  }

  /** The first element is kept exactly when it is present, ahead of the filtered rest. */
  lemma ListOfNotNullFirst<T(!new)>(xs: seq<Option<T>>)
    requires xs != []
    ensures ListOfNotNull(xs) == (if xs[0].Some? then [xs[0].value] else []) + ListOfNotNull(xs[1..])
  {
  }

  /** A single present element is kept, a single absent one dropped. */
  lemma ListOfNotNullSingle<T(!new)>(o: Option<T>)
    ensures ListOfNotNull([o]) == if o.Some? then [o.value] else []
  {
    assert [o][1..] == [];
  }

  /**
   Together with the singletons, the concatenation law fixes the result for every
   input: an element is kept, once and in place, exactly when it is present.
   */
  lemma {:induction false} ListOfNotNullSplit<T(!new)>(xs: seq<Option<T>>, i: nat)
    requires i < |xs|
    ensures ListOfNotNull(xs) == ListOfNotNull(xs[..i])
                                 + (if xs[i].Some? then [xs[i].value] else [])
                                 + ListOfNotNull(xs[i + 1..])
  {
    var front, mid, back := xs[..i], [xs[i]], xs[i + 1..];
    assert xs == (front + mid) + back;
    ListOfNotNullAppend(front + mid, back);
    ListOfNotNullAppend(front, mid);
    ListOfNotNullSingle(xs[i]);
  }

  /** The two overlay actions for the current run state. */
  function Actions(d: Device, started: bool): (r: seq<RemoteAction>)
    ensures |r| == if d.sdkInt >= O then 2 else 0
  {
    ListOfNotNull([
      CreateRemoteAction(d, IcRefresh, ClearTitle, REQUEST_CLEAR, CONTROL_TYPE_CLEAR),
      if started then CreateRemoteAction(d, IcPause, PauseTitle, REQUEST_START_OR_PAUSE, CONTROL_TYPE_START_OR_PAUSE)
      else CreateRemoteAction(d, IcPlayArrow, StartTitle, REQUEST_START_OR_PAUSE, CONTROL_TYPE_START_OR_PAUSE)
    ])
  }

  /** The PiP parameters the screen installs. */
  datatype Params = Params(
    actions: seq<RemoteAction>,
    aspectRatio: (int, int),
    seamlessResizeEnabled: Option<bool>,   // None: the builder's default is kept
    autoEnterEnabled: Option<bool>,
    hasSourceRectHint: bool
  )

  /** `updatePictureInPictureParams(started)`: nothing without PiP support. */
  function UpdatePictureInPictureParams(d: Device, started: bool): (r: Option<Params>)
    ensures r.None? <==> !HasPictureInPictureSupport(d)
  {
    if !HasPictureInPictureSupport(d) then None
    else if d.sdkInt >= O then
      Some(Params(
        Actions(d, started),
        (16, 9),
        if d.sdkInt >= S then Some(false) else None,
        if HasEnhancedPictureInPictureSupport(d) then Some(true) else None,
        HasEnhancedPictureInPictureSupport(d)))
    else None
  }

  /**
   Where PiP is supported the parameters hold exactly two actions: first the
   clear action (request 3, control 1), then the start/pause action (request 4,
   control 2) showing pause while started and start while stopped; the aspect
   is 16:9; seamless resize is switched off exactly from Android 12, where
   auto-enter and the source hint are also set.
   */
  lemma ParamsShape(d: Device, started: bool)
    requires HasPictureInPictureSupport(d)
    ensures var p := UpdatePictureInPictureParams(d, started).value;
            && |p.actions| == 2
            && p.actions[0] == RemoteAction(IcRefresh, ClearTitle, REQUEST_CLEAR, ControlIntent(CONTROL_TYPE_CLEAR))
            && p.actions[1].requestCode == REQUEST_START_OR_PAUSE
            && p.actions[1].intent == ControlIntent(CONTROL_TYPE_START_OR_PAUSE)
            && (p.actions[1].title == PauseTitle <==> started)
            && (p.actions[1].title == StartTitle <==> !started)
            && (p.actions[1].icon == IcPause <==> started)
            && p.aspectRatio == (16, 9)
            && (p.seamlessResizeEnabled == Some(false) <==> d.sdkInt >= S)
            && (p.seamlessResizeEnabled.None? <==> d.sdkInt < S)
            && (p.autoEnterEnabled == Some(true) <==> HasEnhancedPictureInPictureSupport(d))
            && (p.hasSourceRectHint <==> HasEnhancedPictureInPictureSupport(d))
  {
  }

  /**
   Each overlay action, when tapped, performs its own operation: the first
   clears, the second starts or pauses; and the receiver for them is registered.
   */
  lemma ActionsDispatchToTheirOperation(d: Device, started: bool, vm: VM.ViewModel, now: int)
    requires HasPictureInPictureSupport(d)
    ensures var p := UpdatePictureInPictureParams(d, started).value;
            && ReceivedCommand(Some(p.actions[0].intent)) == DoClear
            && ReceivedCommand(Some(p.actions[1].intent)) == DoStartOrPause
            && OnReceive(vm, Some(p.actions[0].intent), now) == VM.Clear(vm, now)
            && OnReceive(vm, Some(p.actions[1].intent), now) == VM.StartOrPause(vm, now)
    ensures ReceiverRegistered(d)
  {
    ParamsShape(d, started);
  }

  /**
   The overlay stays truthful: after its start/pause action is tapped, the
   parameters rebuilt from the view model's new state offer the opposite action.
   */
  lemma OverlayFollowsToggle(d: Device, vm: VM.ViewModel, now: int)
    requires HasPictureInPictureSupport(d)
    ensures var tapped := UpdatePictureInPictureParams(d, vm.started).value.actions[1];
            var vm' := OnReceive(vm, Some(tapped.intent), now);
            var rebuilt := UpdatePictureInPictureParams(d, vm'.started).value.actions[1];
            && vm'.started == !vm.started
            && (rebuilt.title == PauseTitle <==> tapped.title == StartTitle)
  {
    ActionsDispatchToTheirOperation(d, vm.started, vm, now);
    ParamsShape(d, vm.started);
    ParamsShape(d, !vm.started);
  }

  datatype Visibility = Visible | Gone

  /** The in-app buttons after a PiP mode change. */
  datatype Buttons = Buttons(clear: Visibility, startOrPause: Visibility)

  /** `onPictureInPictureModeChanged`: the in-app buttons are hidden exactly while in PiP. */
  function OnPictureInPictureModeChanged(inPictureInPicture: bool): (b: Buttons)
    ensures b.clear == Gone <==> inPictureInPicture
    ensures b.startOrPause == b.clear
  {
    if inPictureInPicture then Buttons(Gone, Gone) else Buttons(Visible, Visible)
  }

  /** The PiP button is offered exactly where PiP is supported. */
  function PipButtonVisibility(d: Device): (v: Visibility)
    ensures v == Visible <==> HasPictureInPictureSupport(d)
  {
    if HasPictureInPictureSupport(d) then Visible else Gone
  }

  /** The in-app start/pause button's icon. */
  function StartOrPauseIcon(started: bool): (i: Icon)
    ensures i == IcPause <==> started
    ensures i == IcPlayArrow <==> !started
  {
    if started then IcPause else IcPlayArrow
  }

  /** What the parameter provider passed to the guarded entry yields. */
  function ParamsSupplyFor(d: Device, started: bool): ParamsSupply {
    if UpdatePictureInPictureParams(d, started).Some? then PipParams else OtherOrNull
  }

  /** The result of a tap on the PiP button: the message shown, if any, and how entry went. */
  datatype Click = Click(toast: Option<StringRes>, entry: Entry)

  /** The PiP button's click handler. */
  function OnPipClick(d: Device, started: bool): (c: Click)
    ensures c.toast.None? <==> c.entry.ReportedSuccess?
    ensures !HasPictureInPictureSupport(d) ==> c == Click(Some(StatusMessageRes(d)), NotAttempted)
  {
    if !HasPictureInPictureSupport(d) then Click(Some(StatusMessageRes(d)), NotAttempted)
    else if !CanEnterPictureInPicture(d) then Click(Some(PipDisabled), NotAttempted)
    else
      var entry := EnterPictureInPictureEntry(d, ParamsSupplyFor(d, started));
      if !entry.ReportedSuccess? then Click(Some(PipFailed), entry) else Click(None, entry)
  }

  /**
   A tap on the PiP button: below Android 8.0 it explains that API 26 is needed
   and does not try; without the system feature it says PiP is disabled; when
   the platform refuses it says entry failed; otherwise it enters silently, with
   the screen's parameters.
   */
  lemma PipClickOutcomes(d: Device, started: bool)
    ensures var c := OnPipClick(d, started);
            && (c.toast == Some(PipRequiresApi26) <==> d.sdkInt < O)
            && (c.toast == Some(PipDisabled) <==> d.sdkInt >= O && !d.hasPipFeature)
            && (c.toast == Some(PipFailed) <==> CanEnterPictureInPicture(d) && d.enterFault.Some?)
            && (c.toast.None? <==> c.entry.ReportedSuccess?)
            && (c.entry.ReportedSuccess? <==> CanEnterPictureInPicture(d) && d.enterFault.None?)
            && (c.entry.ReportedSuccess? ==> c.entry.withParams)
            && (CanEnterPictureInPicture(d) && d.enterFault.None? && !d.enterAccepted ==> c.toast.None?)
            && (!CanEnterPictureInPicture(d) ==> c.entry == NotAttempted)
  {
  }

  /**
   While in PiP the in-app buttons are gone and the overlay offers both of
   their operations instead; outside PiP the buttons are back.
   */
  lemma OverlayStandsInForButtons(d: Device, started: bool)
    requires HasPictureInPictureSupport(d)
    ensures var p := UpdatePictureInPictureParams(d, started).value;
            && OnPictureInPictureModeChanged(true) == Buttons(Gone, Gone)
            && OnPictureInPictureModeChanged(false) == Buttons(Visible, Visible)
            && ReceivedCommand(Some(p.actions[0].intent)) == DoClear
            && ReceivedCommand(Some(p.actions[1].intent)) == DoStartOrPause
  {
    ParamsShape(d, started);
  }

  /** The in-app start/pause button and the overlay's start/pause action always show the same icon. */
  lemma IconMatchesOverlay(d: Device, started: bool)
    requires HasPictureInPictureSupport(d)
    ensures StartOrPauseIcon(started) == UpdatePictureInPictureParams(d, started).value.actions[1].icon
  {
    ParamsShape(d, started);
  }

  /** The PiP button is shown exactly where a tap on it does not answer that API 26 is needed. */
  lemma PipButtonOnlyWhereUsable(d: Device, started: bool)
    ensures PipButtonVisibility(d) == Visible <==> OnPipClick(d, started).toast != Some(PipRequiresApi26)
    ensures PipButtonVisibility(d) == Gone ==> OnPipClick(d, started).entry == NotAttempted
  {
  }
}

=== FILE: main_view_model.dfy ===
/**
 `MainViewModel` as shown: a second, self-contained copy of the stopwatch
 engine that reads the platform clock itself. The clock reading is again an
 explicit `now` and the frame an explicit event; the model shows that this
 copy and `TimerRepository` agree on every trace.
 */
module MainViewModel {
  import opened StopwatchFormat
  import Repo = TimerRepository

  datatype ViewModel = ViewModel(
    started: bool,
    timeMillis: int,
    startUptimeMillis: int,
    job: Repo.Job,
    liveLoops: nat
  )

  /** A fresh view model, reading the clock once for its reference. */
  function Create(now: int): (vm: ViewModel)
    ensures !vm.started && vm.timeMillis == 0
  {
    ViewModel(false, 0, now, Repo.NoJob, 0)
  }

  /** The `time` text the view model publishes. */
  function Time(vm: ViewModel): string {
    Format(vm.timeMillis)
  }

  /**
   `startOrPause`: pause and cancel when started; otherwise start and launch a
   loop whose first act is to rebase the reference to `now - timeMillis`.
   */
  function StartOrPause(vm: ViewModel, now: int): (r: ViewModel)
    ensures r.started == !vm.started
    ensures r.timeMillis == vm.timeMillis
    ensures !vm.started ==> r.startUptimeMillis + r.timeMillis == now
    ensures r.liveLoops > vm.liveLoops <==> !vm.started
  {
    if vm.started then
      var job := match vm.job
        case NoJob => Repo.NoJob
        case _ => Repo.Cancelled;
      var loops := if vm.job == Repo.Active && vm.liveLoops > 0 then vm.liveLoops - 1 else vm.liveLoops;
      ViewModel(false, vm.timeMillis, vm.startUptimeMillis, job, loops)
    else
      ViewModel(true, vm.timeMillis, now - vm.timeMillis, Repo.Active, vm.liveLoops + 1)
  }

  /** A frame seen by the running loop (if any) republishes `now - startUptimeMillis`. */
  function AwaitFrame(vm: ViewModel, now: int): (r: ViewModel)
    ensures vm.liveLoops > 0 ==> r.timeMillis + vm.startUptimeMillis == now
    ensures vm.liveLoops == 0 ==> r == vm
  {
    if vm.liveLoops == 0 then vm
    else ViewModel(vm.started, now - vm.startUptimeMillis, vm.startUptimeMillis, vm.job, vm.liveLoops)
  }

  /** `clear`: zero elapsed time measured from `now`, the run flag untouched. */
  function Clear(vm: ViewModel, now: int): (r: ViewModel)
    ensures r.started == vm.started
    ensures r.timeMillis == 0 && r.startUptimeMillis == now
  {
    ViewModel(vm.started, 0, now, vm.job, vm.liveLoops)
  }

  /** A fresh and a cleared view model both publish `00:00:00`. */
  lemma ZeroTimes(vm: ViewModel, now: int)
    ensures Time(Create(now)) == "00:00:00"
    ensures Time(Clear(vm, now)) == "00:00:00"
  {
    ShowsZero(Create(now).timeMillis);
    ShowsZero(Clear(vm, now).timeMillis);
  }

  function Handle(vm: ViewModel, e: Repo.Event): ViewModel {
    match e
    case StartOrPauseAt(now) => StartOrPause(vm, now)
    case ClearAt(now) => Clear(vm, now)
    case FrameAt(now) => AwaitFrame(vm, now)
  }

  function Replay(vm: ViewModel, trace: seq<Repo.Event>): ViewModel
    decreases |trace|
  {
    if trace == [] then vm else Replay(Handle(vm, trace[0]), trace[1..])
  }

  /** The repository state holding the same values. */
  function AsRepository(vm: ViewModel): Repo.Stopwatch {
    Repo.Stopwatch(vm.started, vm.timeMillis, vm.startUptimeMillis, vm.job, vm.liveLoops)
  }

  /** Each operation of the view model does what the repository's does. */
  lemma HandleMatchesRepository(vm: ViewModel, e: Repo.Event)
    ensures AsRepository(Handle(vm, e)) == Repo.Step(AsRepository(vm), e)
  {
  }

  /**
   The two engines are interchangeable: created at the same clock reading and
   fed the same events, they hold the same state, publish the same started flag
   and show the same text.
   */
  lemma {:induction false} SameAsRepository(start: int, trace: seq<Repo.Event>)
    ensures AsRepository(Replay(Create(start), trace)) == Repo.Run(Repo.New(start), trace)
    ensures Replay(Create(start), trace).started == Repo.Run(Repo.New(start), trace).started
    ensures Time(Replay(Create(start), trace)) == Repo.Display(Repo.Run(Repo.New(start), trace))
  {
    ReplayMatchesRun(Create(start), trace);
  }

  lemma {:induction false} ReplayMatchesRun(vm: ViewModel, trace: seq<Repo.Event>)
    ensures AsRepository(Replay(vm, trace)) == Repo.Run(AsRepository(vm), trace)
    decreases |trace|
  {
    if trace != [] {
      HandleMatchesRepository(vm, trace[0]);
      ReplayMatchesRun(Handle(vm, trace[0]), trace[1..]);
    }
  }

  /** After N `startOrPause` calls from creation the view model is started iff N is odd. */
  lemma TogglesFromCreation(start: int, trace: seq<Repo.Event>)
    requires forall i :: 0 <= i < |trace| ==> trace[i].StartOrPauseAt?
    ensures Replay(Create(start), trace).started <==> |trace| % 2 == 1
  {
    SameAsRepository(start, trace);
    Repo.TogglesFromFresh(start, trace);
  }
}

=== FILE: movie_activity.dfy ===
/**
 The decision logic of the video screen (`MovieActivity`): the simulated
 two-step playlist behind the media session's skip buttons and the media
 actions it publishes, the PiP aspect choice, when the video controls show,
 and the guard in front of entering PiP.
 */
module MovieActivity {
  import opened PipCompatibility

  /** The playback actions a media session can offer (their bit values are left abstract). */
  datatype MediaAction = Play | Pause | PlayPause | SkipToNext | SkipToPrevious

  const MEDIA_ACTIONS_PLAY_PAUSE: set<MediaAction> := {Play, Pause, PlayPause}
  const MEDIA_ACTIONS_ALL: set<MediaAction> := MEDIA_ACTIONS_PLAY_PAUSE + {SkipToNext, SkipToPrevious}
  const PLAYLIST_SIZE: int := 2

  datatype PlayState = Playing | Paused

  /** The published playback state: what is happening and which actions the PiP window offers. */
  datatype PlaybackState = PlaybackState(state: PlayState, actions: set<MediaAction>)

  /** The session callback's playlist position and the last published playback state. */
  datatype Session = Session(indexInPlaylist: int, playback: PlaybackState)

  /** `initializeMediaSession` (on every `onStart`): a new callback at index 1, all actions offered. */
  function InitializeMediaSession(isPlaying: bool): (s: Session)
    ensures s.indexInPlaylist == 1 && s.playback.actions == MEDIA_ACTIONS_ALL
    ensures s.playback.state == Playing <==> isPlaying
  {
    Session(1, PlaybackState(if isPlaying then Playing else Paused, MEDIA_ACTIONS_ALL))
  }

  /** The three-argument `updatePlaybackState`: a new state with the previously published actions. */
  function UpdatePlaybackState(s: Session, state: PlayState): (r: Session)
    ensures r.playback.state == state
    ensures r.playback.actions == s.playback.actions && r.indexInPlaylist == s.indexInPlaylist
  {
    s.(playback := PlaybackState(state, s.playback.actions))
  }

  /** `onSkipToNext`. */
  function OnSkipToNext(s: Session): (r: Session)
    ensures s.indexInPlaylist >= PLAYLIST_SIZE ==> r == s
    ensures s.indexInPlaylist < PLAYLIST_SIZE ==>
              && r.indexInPlaylist == s.indexInPlaylist + 1 && r.playback.state == Playing
              && MEDIA_ACTIONS_PLAY_PAUSE + {SkipToPrevious} <= r.playback.actions
              && (SkipToNext in r.playback.actions <==> r.indexInPlaylist < PLAYLIST_SIZE)
  {
    if s.indexInPlaylist < PLAYLIST_SIZE then
      var index := s.indexInPlaylist + 1;
      if index >= PLAYLIST_SIZE then
        Session(index, PlaybackState(Playing, MEDIA_ACTIONS_PLAY_PAUSE + {SkipToPrevious}))
      else
        Session(index, PlaybackState(Playing, MEDIA_ACTIONS_ALL))
    else s
  }

  /** `onSkipToPrevious`. */
  function OnSkipToPrevious(s: Session): (r: Session)
    ensures s.indexInPlaylist <= 0 ==> r == s
    ensures s.indexInPlaylist > 0 ==>
              && r.indexInPlaylist == s.indexInPlaylist - 1 && r.playback.state == Playing
              && MEDIA_ACTIONS_PLAY_PAUSE + {SkipToNext} <= r.playback.actions
              && (SkipToPrevious in r.playback.actions <==> r.indexInPlaylist > 0)
  {
    if s.indexInPlaylist > 0 then
      var index := s.indexInPlaylist - 1;
      if index <= 0 then
        Session(index, PlaybackState(Playing, MEDIA_ACTIONS_PLAY_PAUSE + {SkipToNext}))
      else
        Session(index, PlaybackState(Playing, MEDIA_ACTIONS_ALL))
    else s
  }

  /**
   A skip forward at the end of the playlist, or back at its start, changes
   nothing; one that reaches the end offers no further skip forward, one that
   reaches the start no skip back, and any other offers every action. A
   successful skip always publishes PLAYING.
   */
  lemma SkipOutcomes(s: Session)
    requires 0 <= s.indexInPlaylist <= PLAYLIST_SIZE
    ensures s.indexInPlaylist == PLAYLIST_SIZE ==> OnSkipToNext(s) == s
    ensures s.indexInPlaylist == 0 ==> OnSkipToPrevious(s) == s
    ensures s.indexInPlaylist == PLAYLIST_SIZE - 1 ==>
              OnSkipToNext(s) == Session(PLAYLIST_SIZE, PlaybackState(Playing, {Play, Pause, PlayPause, SkipToPrevious}))
    ensures s.indexInPlaylist == 1 ==>
              OnSkipToPrevious(s) == Session(0, PlaybackState(Playing, {Play, Pause, PlayPause, SkipToNext}))
    ensures s.indexInPlaylist < PLAYLIST_SIZE - 1 ==>
              OnSkipToNext(s) == Session(s.indexInPlaylist + 1, PlaybackState(Playing, MEDIA_ACTIONS_ALL))
    ensures s.indexInPlaylist > 1 ==>
              OnSkipToPrevious(s) == Session(s.indexInPlaylist - 1, PlaybackState(Playing, MEDIA_ACTIONS_ALL))
  {
  }

  /** What the screen hears from the media session and the movie view. */
  datatype MediaEvent = SkipNext | SkipPrevious | MovieStarted | MovieStopped

  function Apply(s: Session, e: MediaEvent): Session {
    match e
    case SkipNext => OnSkipToNext(s)
    case SkipPrevious => OnSkipToPrevious(s)
    case MovieStarted => UpdatePlaybackState(s, Playing)
    case MovieStopped => UpdatePlaybackState(s, Paused)
  }

  function Replay(s: Session, events: seq<MediaEvent>): Session
    decreases |events|
  {
    if events == [] then s else Replay(Apply(s, events[0]), events[1..])
  }

  /**
   The PiP window's buttons tell the truth about the playlist: the index stays
   within 0..PLAYLIST_SIZE, play/pause is always offered, and skipping forward
   (back) is offered exactly when there is a next (previous) item.
   */
  predicate ActionsMatchPlaylist(s: Session) {
    && 0 <= s.indexInPlaylist <= PLAYLIST_SIZE
    && MEDIA_ACTIONS_PLAY_PAUSE <= s.playback.actions
    && (SkipToNext in s.playback.actions <==> s.indexInPlaylist < PLAYLIST_SIZE)
    && (SkipToPrevious in s.playback.actions <==> s.indexInPlaylist > 0)
  }

  lemma ApplyKeepsActionsMatch(s: Session, e: MediaEvent)
    requires ActionsMatchPlaylist(s)
    ensures ActionsMatchPlaylist(Apply(s, e))
  {
  }

  /** From any session start, under any mix of skips and playback changes, the published actions match the playlist. */
  lemma {:induction false} ActionsAlwaysMatchPlaylist(isPlaying: bool, events: seq<MediaEvent>)
    ensures ActionsMatchPlaylist(Replay(InitializeMediaSession(isPlaying), events))
  {
    ReplayKeepsActionsMatch(InitializeMediaSession(isPlaying), events);
  }

  lemma {:induction false} ReplayKeepsActionsMatch(s: Session, events: seq<MediaEvent>)
    requires ActionsMatchPlaylist(s)
    ensures ActionsMatchPlaylist(Replay(s, events))
    decreases |events|
  {
    if events != [] {
      ApplyKeepsActionsMatch(s, events[0]);
      ReplayKeepsActionsMatch(Apply(s, events[0]), events[1..]);
    }
  }

  /** Playback changes from the movie view never move the playlist nor alter the offered actions. */
  lemma {:induction false} PlaybackChangesKeepActions(s: Session, events: seq<MediaEvent>)
    requires forall i :: 0 <= i < |events| ==> events[i] == MovieStarted || events[i] == MovieStopped
    ensures Replay(s, events).indexInPlaylist == s.indexInPlaylist
    ensures Replay(s, events).playback.actions == s.playback.actions
    ensures events != [] ==> (Replay(s, events).playback.state == Playing <==> events[|events| - 1] == MovieStarted)
    decreases |events|
  {
    if events != [] {
      var rest := events[1..];
      PlaybackChangesKeepActions(Apply(s, events[0]), rest);
      if rest != [] {
        assert rest[|rest| - 1] == events[|events| - 1];
      }
    }
  }

  /** The PiP parameters the screen asks for: aspect ratio (width, height) and whether a source hint is given. */
  datatype MovieParams = MovieParams(aspectRatio: (int, int), hasSourceRectHint: bool)

  /** `createPictureInPictureParams` for a movie view of the given size. */
  function CreatePictureInPictureParams(width: int, height: int): (p: MovieParams)
    ensures width <= 0 || height <= 0 ==> p == MovieParams((16, 9), false)
    ensures width > 0 && height > 0 ==> p == MovieParams((width, height), true)
  {
    if width <= 0 || height <= 0 then MovieParams((16, 9), false)
    else MovieParams((width, height), true)
  }

  /** The parameters always carry a positive aspect ratio; a source hint exactly when the view has a size. */
  lemma ParamsAspectPositive(width: int, height: int)
    ensures var p := CreatePictureInPictureParams(width, height);
            && p.aspectRatio.0 > 0 && p.aspectRatio.1 > 0
            && (p.hasSourceRectHint <==> p.aspectRatio == (width, height))
  {
  }

  /** `onPictureInPictureModeChanged`: whether the video controls show afterwards. */
  function ControlsAfterPipChange(inPictureInPicture: bool, isPlaying: bool, shown: bool): (r: bool)
    ensures inPictureInPicture ==> !r
    ensures !inPictureInPicture && !isPlaying ==> r
    ensures !inPictureInPicture && isPlaying ==> r == shown
  {
    if inPictureInPicture then false
    else if !isPlaying then true
    else shown
  }

  /** `onRestart`: outside PiP the controls are shown so the video can be resumed. */
  function ControlsAfterRestart(inPictureInPicture: bool, shown: bool): (r: bool)
    ensures !inPictureInPicture ==> r
    ensures inPictureInPicture ==> r == shown
  {
    if !inPictureInPicture then true else shown
  }

  /** A PiP round trip hides the controls while playing and shows them while paused. */
  lemma ControlsShownWhenResumable(isPlaying: bool, shown: bool)
    ensures !ControlsAfterPipChange(false, true, ControlsAfterPipChange(true, isPlaying, shown))
    ensures ControlsAfterPipChange(false, false, ControlsAfterPipChange(true, isPlaying, shown))
  {
  }

  /** A PiP mode change as the screen sees it: the new mode and whether the video is playing. */
  datatype ModeChange = ModeChange(inPictureInPicture: bool, isPlaying: bool)

  /** Whether the controls show after a series of PiP mode changes. */
  function ControlsAfterModeChanges(shown: bool, changes: seq<ModeChange>): bool
    decreases |changes|
  {
    if changes == [] then shown
    else ControlsAfterModeChanges(ControlsAfterPipChange(changes[0].inPictureInPicture, changes[0].isPlaying, shown), changes[1..])
  }

  /** Once PiP has been entered while the video keeps playing, no later mode change brings the controls back. */
  lemma {:induction false} PlayingKeepsControlsHidden(shown: bool, changes: seq<ModeChange>)
    requires forall i :: 0 <= i < |changes| ==> changes[i].isPlaying
    requires exists i :: 0 <= i < |changes| && changes[i].inPictureInPicture
    ensures !ControlsAfterModeChanges(shown, changes)
    decreases |changes|
  {
    var next := ControlsAfterPipChange(changes[0].inPictureInPicture, changes[0].isPlaying, shown);
    if changes[0].inPictureInPicture {
      HiddenStaysHiddenWhilePlaying(changes[1..]);
    } else {
      var i :| 0 <= i < |changes| && changes[i].inPictureInPicture;
      assert changes[1..][i - 1].inPictureInPicture;
      PlayingKeepsControlsHidden(next, changes[1..]);
    }
  }

  lemma {:induction false} HiddenStaysHiddenWhilePlaying(changes: seq<ModeChange>)
    requires forall i :: 0 <= i < |changes| ==> changes[i].isPlaying
    ensures !ControlsAfterModeChanges(false, changes)
    decreases |changes|
  {
    if changes != [] {
      HiddenStaysHiddenWhilePlaying(changes[1..]);
    }
  }

  /** Whatever came before, leaving PiP while paused leaves the controls showing. */
  lemma {:induction false} LeavingWhilePausedShows(shown: bool, changes: seq<ModeChange>)
    requires changes != [] && changes[|changes| - 1] == ModeChange(false, false)
    ensures ControlsAfterModeChanges(shown, changes)
    decreases |changes|
  {
    var next := ControlsAfterPipChange(changes[0].inPictureInPicture, changes[0].isPlaying, shown);
    if |changes| > 1 {
      assert changes[1..][|changes[1..]| - 1] == changes[|changes| - 1];
      LeavingWhilePausedShows(next, changes[1..]);
    }
  }

  /** `minimize` (and the same guard in `onUserLeaveHint`): try the guarded entry only when PiP is supported and allowed. */
  function Minimize(d: Device, supply: ParamsSupply): (r: Entry)
    ensures !CanEnterPictureInPicture(d) ==> r == NotAttempted
    ensures CanEnterPictureInPicture(d) ==> r == EnterPictureInPictureEntry(d, supply)
  {
    if !HasPictureInPictureSupport(d) then NotAttempted
    else if !CanEnterPictureInPicture(d) then NotAttempted
    else EnterPictureInPictureEntry(d, supply)
  }

  /**
   `minimize` does nothing unless PiP is supported and can be entered, and its
   guard adds nothing to the one inside the guarded entry: both end the same way.
   */
  lemma MinimizeGuard(d: Device, supply: ParamsSupply)
    ensures !CanEnterPictureInPicture(d) ==> Minimize(d, supply) == NotAttempted
    ensures Minimize(d, supply) == EnterPictureInPictureEntry(d, supply)
    ensures Minimize(d, supply).ReportedSuccess? <==> CanEnterPictureInPicture(d) && !supply.SupplyThrows? && d.enterFault.None?
  {
  }
}

=== FILE: nullable.dfy ===
/** Kotlin's nullable types `T?`: a value that is either absent (`null`) or present. */
module Nullable {

  datatype Option<+T> = None | Some(value: T)
}

=== FILE: pip_compatibility.dfy ===
/**
 `PipCompatibilityManager`: feature detection for picture-in-picture over an
 abstract device (its SDK level, whether it declares the PiP system feature,
 and what the platform's enter-PiP call does), and the guarded entry that
 turns every failure into `false`.
 */
module PipCompatibility {
  import opened Nullable

  /** `Build.VERSION_CODES.O` (Android 8.0) and `Build.VERSION_CODES.S` (Android 12). */
  const O: int := 26
  const S: int := 31

  /** The exceptions the guarded entry distinguishes; all end the same way. */
  datatype Failure = SecurityException | IllegalStateException | OtherException

  datatype Device = Device(
    sdkInt: int,
    hasPipFeature: bool,               // `hasSystemFeature(FEATURE_PICTURE_IN_PICTURE)`
    enterFault: Option<Failure>,       // what `enterPictureInPictureMode` throws, if anything
    enterAccepted: bool                // the Boolean `enterPictureInPictureMode(params)` returns when it does not throw
  )

  predicate HasPictureInPictureSupport(d: Device) {
    d.sdkInt >= O
  }

  predicate HasRemoteActionSupport(d: Device) {
    d.sdkInt >= O
  }

  predicate HasEnhancedPictureInPictureSupport(d: Device) {
    d.sdkInt >= S
  }

  function CanEnterPictureInPicture(d: Device): (r: bool)
    ensures r <==> d.sdkInt >= O && d.hasPipFeature
  {
    if !HasPictureInPictureSupport(d) then false else d.hasPipFeature
  }

  /** Remote actions are available exactly where PiP is; the Android 12 features only where both are. */
  lemma SupportLevels(d: Device)
    ensures HasRemoteActionSupport(d) <==> HasPictureInPictureSupport(d)
    ensures HasEnhancedPictureInPictureSupport(d) ==> HasPictureInPictureSupport(d)
    ensures CanEnterPictureInPicture(d) ==> HasPictureInPictureSupport(d)
  {
  }

  /** What the caller's parameter provider does when asked for the PiP parameters. */
  datatype ParamsSupply =
    | PipParams          // returns a `PictureInPictureParams`
    | OtherOrNull        // returns `null` or some other object
    | SupplyThrows(failure: Failure)

  /** How a guarded entry ended. */
  datatype Entry =
    | NotAttempted                   // PiP unavailable: the platform was not asked
    | ReportedSuccess(withParams: bool, accepted: bool)
                                     // `true` returned after the call with the supplied parameters or the
                                     // legacy call; `accepted` is what the platform answered, and is ignored
    | Caught(failure: Failure)       // the provider or the platform threw

  /**
   `enterPictureInPictureSafely`, keeping the path it took: nothing when PiP
   cannot be entered; otherwise the parameters are asked for and the matching
   platform call made, and any exception from either is caught. When the
   platform call returns, success is reported whatever it answered (the legacy
   call answers nothing, which is taken as acceptance).
   */
  function EnterPictureInPictureEntry(d: Device, supply: ParamsSupply): (r: Entry)
    ensures !CanEnterPictureInPicture(d) <==> r == NotAttempted
    ensures r.ReportedSuccess? <==> CanEnterPictureInPicture(d) && !supply.SupplyThrows? && d.enterFault.None?
    ensures r.ReportedSuccess? ==> (r.withParams <==> supply == PipParams)
    ensures r.ReportedSuccess? ==> (r.accepted <==> !r.withParams || d.enterAccepted)
    ensures r.Caught? ==> (supply.SupplyThrows? && r.failure == supply.failure)
                          || (!supply.SupplyThrows? && d.enterFault == Some(r.failure))
  {
    if !CanEnterPictureInPicture(d) then NotAttempted
    else if d.sdkInt < O then NotAttempted
    else
      match supply
      case SupplyThrows(f) => Caught(f)
      case PipParams =>
        (match d.enterFault
         case Some(f) => Caught(f)
         case None => ReportedSuccess(true, d.enterAccepted))
      case OtherOrNull =>
        (match d.enterFault
         case Some(f) => Caught(f)
         case None => ReportedSuccess(false, true))
  }

  /** `enterPictureInPictureSafely`: whether PiP was entered; a thrown exception is never passed on. */
  function EnterPictureInPictureSafely(d: Device, supply: ParamsSupply): (r: bool)
    ensures r <==> CanEnterPictureInPicture(d) && !supply.SupplyThrows? && d.enterFault.None?
  {
    EnterPictureInPictureEntry(d, supply).ReportedSuccess?
  }

  /**
   Whether the provider hands back PiP parameters or some other object does not
   change the guarded entry's answer: only a throwing provider does.
   */
  lemma EnterSafelyIgnoresParamsKind(d: Device)
    ensures EnterPictureInPictureSafely(d, PipParams) == EnterPictureInPictureSafely(d, OtherOrNull)
  {
  }

  /**
   The platform's Boolean answer does not reach the caller: a refusal that does
   not throw is reported as success, exactly like an acceptance.
   */
  lemma RefusalReportedAsSuccess(d: Device, supply: ParamsSupply)
    ensures EnterPictureInPictureSafely(d.(enterAccepted := false), supply)
            == EnterPictureInPictureSafely(d.(enterAccepted := true), supply)
    ensures CanEnterPictureInPicture(d) && supply == PipParams && d.enterFault.None? && !d.enterAccepted ==>
              EnterPictureInPictureSafely(d, supply) && !EnterPictureInPictureEntry(d, supply).accepted
  {
  }

  /** The string resources the PiP screens show. */
  datatype StringRes = PipRequiresApi26 | PipAvailable | PipDisabled | PipFailed

  /** `getPictureInPictureStatusMessageRes`. */
  function StatusMessageRes(d: Device): (r: StringRes)
    ensures r == PipRequiresApi26 <==> !HasPictureInPictureSupport(d)
    ensures r == PipAvailable <==> HasPictureInPictureSupport(d)
  {
    if !HasPictureInPictureSupport(d) then PipRequiresApi26 else PipAvailable
  }
}

=== FILE: stopwatch_format.dfy ===
/**
 The stopwatch display text "MM:SS:HH" (minutes, seconds, hundredths), as both
 timer engines compute it from the elapsed milliseconds. The minutes field is
 padded to two digits but never reduced, so from 100 minutes on it is wider.
 `Parse` reads the three fields back and is the formatter's partner.
 */
module StopwatchFormat {
  import opened Nullable
  import opened KotlinText

  /** One field: `v.toString().padStart(2, '0')`. */
  function Field(v: int): string {
    PadStart(LongToString(v), 2, '0')
  }

  /** The display text for an elapsed time of `millis`, with Kotlin's truncating `Long` arithmetic. */
  function Format(millis: int): string {
    var minutes := Quot(Quot(millis, 1000), 60);
    var seconds := Rem(Quot(millis, 1000), 60);
    var hundredths := Quot(Rem(millis, 1000), 10);
    Field(minutes) + ":" + Field(seconds) + ":" + Field(hundredths)
  }

  /** The three numbers a display text shows. */
  datatype Reading = Reading(minutes: nat, seconds: nat, hundredths: nat)

  /**
   Reads a display text from the right: two digits of hundredths, a colon, two
   digits of seconds, a colon, and at least two digits of minutes before them
   (the formatter never writes fewer).
   */
  function Parse(text: string): (r: Option<Reading>)
    ensures r.Some? ==> |text| >= 8 && text[|text| - 3] == ':' && text[|text| - 6] == ':'
    ensures r.Some? ==> r.value.seconds < 100 && r.value.hundredths < 100
  {
    var n := |text|;
    if n < 8 then None
    else
      if text[n - 6] == ':' && text[n - 3] == ':' then ParseFields(text[..n - 6], text[n - 5..n - 3], text[n - 2..])
      else None
  }

  function ParseFields(m: string, s: string, h: string): (r: Option<Reading>)
    requires |s| == 2 && |h| == 2
    ensures r.Some? ==> r.value.seconds < 100 && r.value.hundredths < 100
  {
    if AllDigits(m) && AllDigits(s) && AllDigits(h) then
      TwoDigitsBelowHundred(s);
      TwoDigitsBelowHundred(h);
      Some(Reading(ParseDigits(m), ParseDigits(s), ParseDigits(h)))
    else None
  }

  /** The fixed-width form "dd:dd:dd" that the display keeps below 100 minutes. */
  predicate IsClockShape(text: string) {
    && |text| == 8
    && text[2] == ':' && text[5] == ':'
    && IsDigit(text[0]) && IsDigit(text[1])
    && IsDigit(text[3]) && IsDigit(text[4])
    && IsDigit(text[6]) && IsDigit(text[7])
  }

  lemma TwoDigitsBelowHundred(s: string)
    requires |s| == 2 && AllDigits(s)
    ensures ParseDigits(s) < 100
  {
    assert s[..1][..0] == [];
    assert ParseDigits(s[..1]) == DigitValue(s[0]);
    assert ParseDigits(s) == ParseDigits(s[..1]) * 10 + DigitValue(s[1]);
  }

  /** A field of a non-negative value below 100 is two digits that read back as the value. */
  lemma {:induction false} FieldOfSmall(v: int)
    requires 0 <= v < 100
    ensures |Field(v)| == 2 && AllDigits(Field(v))
    ensures ParseDigits(Field(v)) == v
  {
    FieldOfNatural(v);
    NaturalToStringAtMostTwo(v);
  }

  /** A field of a non-negative value is its digits, zero-padded to at least two, reading back as the value. */
  lemma {:induction false} FieldOfNatural(v: int)
    requires v >= 0
    ensures AllDigits(Field(v))
    ensures |Field(v)| == if |NaturalToString(v)| >= 2 then |NaturalToString(v)| else 2
    ensures ParseDigits(Field(v)) == v
  {
    var digits := NaturalToString(v);
    ParseNaturalToString(v);
    if |digits| < 2 {
      assert Field(v) == Repeat('0', 2 - |digits|) + digits;
      ParseDigitsIgnoresLeadingZeros(2 - |digits|, digits);
    }
  }

  /** Kotlin's nested truncating divisions agree with the plain decomposition of a non-negative reading. */
  lemma FieldsOfNatural(millis: int)
    requires millis >= 0
    ensures Quot(Quot(millis, 1000), 60) == millis / 60000
    ensures Rem(Quot(millis, 1000), 60) == (millis / 1000) % 60
    ensures Quot(Rem(millis, 1000), 10) == (millis % 1000) / 10
  {
    QuotRemOfNatural(millis, 1000);
    QuotRemOfNatural(millis / 1000, 60);
    QuotRemOfNatural(millis % 1000, 10);
  }

  /** The sum of the shown fields is the reading with its last (sub-hundredth) digit dropped. */
  lemma FieldsRecompose(millis: int)
    requires millis >= 0
    ensures (millis / 60000) * 60000 + ((millis / 1000) % 60) * 1000 + ((millis % 1000) / 10) * 10
            == millis - millis % 10
  {
    HundredthsFields(millis);
    var q := millis / 10;
    var c := q / 100;
    assert millis - millis % 10 == 10 * q;
    assert q == 100 * c + q % 100;
    assert c == 60 * (c / 60) + c % 60;
    assert q / 6000 == c / 60;
  }

  /**
   Round trip: for every non-negative reading the display text parses back into
   its minutes, seconds (0..59) and hundredths (0..99), and these recompose the
   reading down to the millisecond digit that the display drops.
   */
  lemma {:induction false} ParseFormat(millis: int)
    requires millis >= 0
    ensures Parse(Format(millis)) == Some(Reading(millis / 60000, (millis / 1000) % 60, (millis % 1000) / 10))
    ensures var r := Parse(Format(millis)).value;
            && r.seconds < 60 && r.hundredths < 100
            && r.minutes * 60000 + r.seconds * 1000 + r.hundredths * 10 == millis - millis % 10
  {
    FieldsOfNatural(millis);
    FieldsRecompose(millis);
    var mm, ss, hh := millis / 60000, (millis / 1000) % 60, (millis % 1000) / 10;
    FieldOfNatural(mm);
    FieldOfSmall(ss);
    FieldOfSmall(hh);
    FormatOfNatural(millis);
    ParseJoined(Field(mm), Field(ss), Field(hh));
  }

  /** For a non-negative reading, the display is the three fields of its plain decomposition. */
  lemma FormatOfNatural(millis: int)
    requires millis >= 0
    ensures Format(millis) == Field(millis / 60000) + ":" + Field((millis / 1000) % 60) + ":" + Field((millis % 1000) / 10)
  {
    FieldsOfNatural(millis);
  }

  /** Parsing three digit fields joined by colons gives back their values. */
  lemma ParseJoined(m: string, s: string, h: string)
    requires AllDigits(m) && AllDigits(s) && AllDigits(h)
    requires |m| >= 2 && |s| == 2 && |h| == 2
    ensures Parse(m + ":" + s + ":" + h) == Some(Reading(ParseDigits(m), ParseDigits(s), ParseDigits(h)))
  {
    var text := m + ":" + s + ":" + h;
    var n := |text|;
    SplitJoined(m, s, h);
    assert ParseFields(m, s, h) == Some(Reading(ParseDigits(m), ParseDigits(s), ParseDigits(h)));
    assert Parse(text) == ParseFields(m, s, h);
  }

  /** Cutting a joined text where `Parse` cuts it gives back its parts. */
  lemma SplitJoined(m: string, s: string, h: string)
    requires |s| == 2 && |h| == 2
    ensures var text := m + ":" + s + ":" + h;
            var n := |text|;
            && n == |m| + 6
            && text[n - 6] == ':' && text[n - 3] == ':'
            && text[..n - 6] == m && text[n - 5..n - 3] == s && text[n - 2..] == h
  {
    var text := m + ":" + s + ":" + h;
    var n := |text|;
    assert forall i :: 0 <= i < |m| ==> text[i] == m[i];
    assert text[n - 5] == s[0] && text[n - 4] == s[1];
    assert text[n - 2] == h[0] && text[n - 1] == h[1];
  }

  /** A non-negative reading keeps the fixed "dd:dd:dd" display exactly while it is below 100 minutes. */
  lemma {:induction false} ClockShapeBelowHundredMinutes(millis: int)
    requires millis >= 0
    ensures IsClockShape(Format(millis)) <==> millis < 6000000
    ensures millis >= 6000000 ==> |Format(millis)| > 8
  {
    var mm, ss, hh := millis / 60000, (millis / 1000) % 60, (millis % 1000) / 10;
    FieldOfNatural(mm);
    FieldOfSmall(ss);
    FieldOfSmall(hh);
    NaturalToStringAtMostTwo(mm);
    FormatOfNatural(millis);
    JoinedShape(Field(mm), Field(ss), Field(hh));
  }

  /** Three digit fields joined by colons have the clock shape exactly when the first is two wide. */
  lemma JoinedShape(m: string, s: string, h: string)
    requires AllDigits(m) && AllDigits(s) && AllDigits(h)
    requires |m| >= 2 && |s| == 2 && |h| == 2
    ensures IsClockShape(m + ":" + s + ":" + h) <==> |m| == 2
  {
    var text := m + ":" + s + ":" + h;
    if |m| == 2 {
      assert text[0] == m[0] && text[1] == m[1] && text[2] == ':';
      assert text[3] == s[0] && text[4] == s[1] && text[5] == ':';
      assert text[6] == h[0] && text[7] == h[1];
    }
  }

  /**
   Two non-negative readings show the same text exactly when they agree on
   everything from the hundredths up.
   */
  lemma {:induction false} FormatSameIffSameHundredths(a: int, b: int)
    requires a >= 0 && b >= 0
    ensures Format(a) == Format(b) <==> a / 10 == b / 10
  {
    if Format(a) == Format(b) {
      SameTextSameHundredths(a, b);
    }
    if a / 10 == b / 10 {
      HundredthsDetermineFields(a, b);
      FormatOfNatural(a);
      FormatOfNatural(b);
    }
  }

  lemma SameTextSameHundredths(a: int, b: int)
    requires a >= 0 && b >= 0 && Format(a) == Format(b)
    ensures a / 10 == b / 10
  {
    ParseFormat(a);
    ParseFormat(b);
    assert a - a % 10 == b - b % 10;
  }

  lemma HundredthsDetermineFields(a: int, b: int)
    requires a >= 0 && b >= 0 && a / 10 == b / 10
    ensures a / 60000 == b / 60000
    ensures (a / 1000) % 60 == (b / 1000) % 60
    ensures (a % 1000) / 10 == (b % 1000) / 10
  {
    HundredthsFields(a);
    HundredthsFields(b);
  }

  /** Every field of a non-negative reading depends only on its count of hundredths. */
  lemma HundredthsFields(a: int)
    requires a >= 0
    ensures a / 60000 == (a / 10) / 6000
    ensures a / 1000 == (a / 10) / 100
    ensures (a % 1000) / 10 == (a / 10) % 100
  {
    var q := a / 10;
    assert a == 10 * q + a % 10;
    assert q == 6000 * (q / 6000) + q % 6000;
    assert q == 100 * (q / 100) + q % 100;
  }

  /** A field of a value below 100 is its tens digit then its units digit. */
  lemma FieldDigits(v: int)
    requires 0 <= v < 100
    ensures Field(v) == [DigitChar(v / 10), DigitChar(v % 10)]
  {
    if v < 10 {
      assert NaturalToString(v) == [DigitChar(v)];
      assert Field(v) == Repeat('0', 1) + [DigitChar(v)];
    } else {
      assert NaturalToString(v / 10) == [DigitChar(v / 10)];
    }
  }

  // The lemmas below that show the text at fixed readings take each reading as
  // a parameter pinned by `requires`, rather than as a literal: a literal
  // argument makes the verifier evaluate `Format` eagerly, which is far costlier.

  /** The texts the stopwatch shows at a few readings. */
  lemma FormatExamples(zero: int, second: int, minuteFive: int, secondHalf: int, lastBelowTen: int)
    requires zero == 0 && second == 1000 && minuteFive == 65000 && secondHalf == 1050 && lastBelowTen == 599990
    ensures Format(zero) == "00:00:00"
    ensures Format(second) == "00:01:00"
    ensures Format(minuteFive) == "01:05:00"
    ensures Format(secondHalf) == "00:01:05"
    ensures Format(lastBelowTen) == "09:59:99"
  {
    ShowsAt(zero, 0, 0, 0);
    ShowsAt(second, 0, 1, 0);
    ShowsAt(minuteFive, 1, 5, 0);
    ShowsAt(secondHalf, 0, 1, 5);
    ShowsAt(lastBelowTen, 9, 59, 99);
  }

  /** A zero reading shows `00:00:00`. */
  lemma ShowsZero(millis: int)
    requires millis == 0
    ensures Format(millis) == "00:00:00"
  {
    ShowsAt(millis, 0, 0, 0);
  }

  lemma ShowsAt(millis: int, mm: int, ss: int, hh: int)
    requires millis >= 0 && 0 <= mm < 100 && 0 <= ss < 100 && 0 <= hh < 100
    requires millis / 60000 == mm && (millis / 1000) % 60 == ss && (millis % 1000) / 10 == hh
    ensures Format(millis)
            == [DigitChar(mm / 10), DigitChar(mm % 10), ':', DigitChar(ss / 10), DigitChar(ss % 10), ':', DigitChar(hh / 10), DigitChar(hh % 10)]
  {
    FormatOfNatural(millis);
    JoinedFields(mm, ss, hh);
  }

  lemma JoinedFields(mm: int, ss: int, hh: int)
    requires 0 <= mm < 100 && 0 <= ss < 100 && 0 <= hh < 100
    ensures Field(mm) + ":" + Field(ss) + ":" + Field(hh)
            == [DigitChar(mm / 10), DigitChar(mm % 10), ':', DigitChar(ss / 10), DigitChar(ss % 10), ':', DigitChar(hh / 10), DigitChar(hh % 10)]
  {
    FieldDigits(mm);
    FieldDigits(ss);
    FieldDigits(hh);
    JoinTwoWide(Field(mm), Field(ss), Field(hh));
  }

  /** Three two-character fields joined by colons, character by character. */
  lemma JoinTwoWide(m: string, s: string, h: string)
    requires |m| == 2 && |s| == 2 && |h| == 2
    ensures m + ":" + s + ":" + h == [m[0], m[1], ':', s[0], s[1], ':', h[0], h[1]]
  {
  }

  /** A reading one second below zero shows as "00:-1:00", because Kotlin's `/` and `%` truncate toward zero. */
  lemma MinusOneSecondText(millis: int)
    requires millis == -1000
    ensures Format(millis) == "00:-1:00"
  {
    var q := Quot(millis, 1000);
    assert q == -1 && Rem(millis, 1000) == 0;
    assert Quot(q, 60) == 0 && Rem(q, 60) == -1;
    assert Format(millis) == Field(0) + ":" + Field(-1) + ":" + Field(0);
    MinusOneFields(0, -1);
  }

  lemma MinusOneFields(zero: int, minusOne: int)
    requires zero == 0 && minusOne == -1
    ensures Field(zero) + ":" + Field(minusOne) + ":" + Field(zero) == "00:-1:00"
  {
    FieldDigits(zero);
    assert LongToString(minusOne) == "-" + NaturalToString(1);
    assert NaturalToString(1) == [DigitChar(1)];
  }
}

=== FILE: test_time_provider.dfy ===
/**
 `TestTimeProvider`, the settable clock the engine tests drive the stopwatch
 with, and a small driver that runs a test script (clock moves interleaved with
 engine calls) against `TimerRepository`, each engine call reading the clock.
 */
module TestTimeProvider {
  import opened StopwatchFormat
  import Repo = TimerRepository

  datatype TestClock = TestClock(currentTime: int)

  /** A new provider reads 0. */
  function Fresh(): (c: TestClock)
    ensures UptimeMillis(c) == 0
  {
    TestClock(0)
  }

  /** `uptimeMillis()`: the stored time; reading leaves the clock as it is. */
  function UptimeMillis(c: TestClock): int {
    c.currentTime
  }

  /** `advanceTime(millis)`: the next reading is `millis` later (earlier if negative). */
  function AdvanceTime(c: TestClock, millis: int): (r: TestClock)
    ensures UptimeMillis(r) - UptimeMillis(c) == millis
  {
    TestClock(c.currentTime + millis)
  }

  /** `setTime(millis)`: the next reading is `millis`, whatever the clock read before. */
  function SetTime(c: TestClock, millis: int): (r: TestClock)
    ensures UptimeMillis(r) == millis
  {
    TestClock(millis)
  }

  /** `reset()`: back to the reading of a new provider. */
  function Reset(c: TestClock): (r: TestClock)
    ensures r == Fresh()
  {
    TestClock(0)
  }

  /** Advancing is additive, advancing by zero changes nothing, and `reset` is `setTime(0)`. */
  lemma ClockLaws(c: TestClock, a: int, b: int, t: int)
    ensures AdvanceTime(AdvanceTime(c, a), b) == AdvanceTime(c, a + b)
    ensures AdvanceTime(c, 0) == c
    ensures AdvanceTime(AdvanceTime(c, a), -a) == c
    ensures SetTime(AdvanceTime(c, a), t) == SetTime(c, t)
    ensures Reset(c) == SetTime(c, 0)
  {
  }

  datatype ClockMove = Advance(millis: int) | Set(millis: int) | ResetClock

  function Move(c: TestClock, m: ClockMove): TestClock {
    match m
    case Advance(d) => AdvanceTime(c, d)
    case Set(t) => SetTime(c, t)
    case ResetClock => Reset(c)
  }

  /** One line of an engine test: move the clock, or call the engine at the clock's reading. */
  datatype TestStep =
    | MoveClock(move: ClockMove)
    | CallStartOrPause
    | CallClear
    | NextFrame

  /** The engine events a script produces, each stamped with the clock reading at that point. */
  function EngineEvents(c: TestClock, script: seq<TestStep>): seq<Repo.Event>
    decreases |script|
  {
    if script == [] then []
    else
      var rest := script[1..];
      match script[0]
      case MoveClock(m) => EngineEvents(Move(c, m), rest)
      case CallStartOrPause => [Repo.StartOrPauseAt(UptimeMillis(c))] + EngineEvents(c, rest)
      case CallClear => [Repo.ClearAt(UptimeMillis(c))] + EngineEvents(c, rest)
      case NextFrame => [Repo.FrameAt(UptimeMillis(c))] + EngineEvents(c, rest)
  }

  /** Runs a script: the clock and the engine after it. */
  function Drive(c: TestClock, s: Repo.Stopwatch, script: seq<TestStep>): (TestClock, Repo.Stopwatch)
    decreases |script|
  {
    if script == [] then (c, s)
    else
      var rest := script[1..];
      match script[0]
      case MoveClock(m) => Drive(Move(c, m), s, rest)
      case CallStartOrPause => Drive(c, Repo.StartOrPause(s, UptimeMillis(c)), rest)
      case CallClear => Drive(c, Repo.Clear(s, UptimeMillis(c)), rest)
      case NextFrame => Drive(c, Repo.Frame(s, UptimeMillis(c)), rest)
  }

  /** Driving the engine from the test clock is running it on the events the clock stamps. */
  lemma {:induction false} DriveIsRun(c: TestClock, s: Repo.Stopwatch, script: seq<TestStep>)
    ensures Drive(c, s, script).1 == Repo.Run(s, EngineEvents(c, script))
    decreases |script|
  {
    if script != [] {
      var rest := script[1..];
      match script[0]
      case MoveClock(m) => DriveIsRun(Move(c, m), s, rest);
      case CallStartOrPause =>
        DriveIsRun(c, Repo.StartOrPause(s, UptimeMillis(c)), rest);
        assert ([Repo.StartOrPauseAt(UptimeMillis(c))] + EngineEvents(c, rest))[1..] == EngineEvents(c, rest);
      case CallClear =>
        DriveIsRun(c, Repo.Clear(s, UptimeMillis(c)), rest);
        assert ([Repo.ClearAt(UptimeMillis(c))] + EngineEvents(c, rest))[1..] == EngineEvents(c, rest);
      case NextFrame =>
        DriveIsRun(c, Repo.Frame(s, UptimeMillis(c)), rest);
        assert ([Repo.FrameAt(UptimeMillis(c))] + EngineEvents(c, rest))[1..] == EngineEvents(c, rest);
    }
  }

  /** A script that only ever advances the clock forward (as a real uptime clock does). */
  predicate ForwardOnly(script: seq<TestStep>) {
    forall i :: 0 <= i < |script| ==> script[i].MoveClock? ==> script[i].move.Advance? && script[i].move.millis >= 0
  }

  lemma {:induction false} ForwardScriptStampsForward(c: TestClock, script: seq<TestStep>)
    requires ForwardOnly(script)
    ensures Repo.ClockForward(UptimeMillis(c), EngineEvents(c, script))
    decreases |script|
  {
    if script != [] {
      var rest := script[1..];
      assert ForwardOnly(rest) by {
        forall i | 0 <= i < |rest| ensures rest[i].MoveClock? ==> rest[i].move.Advance? && rest[i].move.millis >= 0 {
          assert rest[i] == script[i + 1];
        }
      }
      ForwardScriptStampsForward(c, rest);
      match script[0]
      case MoveClock(m) =>
        ForwardScriptStampsForward(Move(c, m), rest);
      case CallStartOrPause =>
        StampInFront(UptimeMillis(c), Repo.StartOrPauseAt(UptimeMillis(c)), EngineEvents(c, rest));
      case CallClear =>
        StampInFront(UptimeMillis(c), Repo.ClearAt(UptimeMillis(c)), EngineEvents(c, rest));
      case NextFrame =>
        StampInFront(UptimeMillis(c), Repo.FrameAt(UptimeMillis(c)), EngineEvents(c, rest));
    }
  }

  lemma StampInFront(t: int, e: Repo.Event, trace: seq<Repo.Event>)
    requires Repo.Stamp(e) == t && Repo.ClockForward(t, trace)
    ensures Repo.ClockForward(t, [e] + trace)
  {
    var full := [e] + trace;
    forall i, j | 0 <= i < j < |full| ensures Repo.Stamp(full[i]) <= Repo.Stamp(full[j]) {
      assert full[j] == trace[j - 1];
      if i > 0 {
        assert full[i] == trace[i - 1];
      }
    }
  }

  /**
   A stopwatch tested with a clock that only moves forward never shows a
   negative elapsed time, whatever the order of starts, pauses, clears and frames.
   */
  lemma ForwardTestNeverNegative(c: TestClock, script: seq<TestStep>)
    requires ForwardOnly(script)
    ensures Drive(c, Repo.New(UptimeMillis(c)), script).1.timeMillis >= 0
  {
    DriveIsRun(c, Repo.New(UptimeMillis(c)), script);
    ForwardScriptStampsForward(c, script);
    Repo.FreshEngineNeverNegative(UptimeMillis(c), EngineEvents(c, script));
  }

  /**
   The pause/resume scenario, with each engine call reading the test clock:
   start at `t`, and a frame 1000 ms later shows 1000; pause then, and 4000 ms
   later the time is still 1000; resume there (the reference moves to 1000 ms
   before that reading), and a frame 1000 ms later shows 2000.
   */
  lemma PauseResumeScenario(t: int)
    ensures var c0 := SetTime(Fresh(), t);
            var s0 := Repo.StartOrPause(Repo.New(UptimeMillis(Fresh())), UptimeMillis(c0));
            var c1 := AdvanceTime(c0, 1000);
            var s1 := Repo.Frame(s0, UptimeMillis(c1));
            var s2 := Repo.StartOrPause(s1, UptimeMillis(c1));
            var c2 := AdvanceTime(c1, 4000);
            var s3 := Repo.StartOrPause(s2, UptimeMillis(c2));
            var c3 := AdvanceTime(c2, 1000);
            var s4 := Repo.Frame(s3, UptimeMillis(c3));
            && s1.timeMillis == 1000
            && !s2.started && Repo.Frame(s2, UptimeMillis(c2)).timeMillis == 1000
            && s3.started && s3.startUptimeMillis == t + 4000
            && s4.timeMillis == 2000
  {
  }

  /**
   Setting the test clock back from `t0` to `t1` while the stopwatch runs makes
   the elapsed time `t1 - t0`, negative.
   */
  lemma BackwardClockGoesNegative(c: TestClock, t0: int, t1: int)
    requires t1 < t0
    ensures var c0 := SetTime(c, t0);
            var s := Repo.StartOrPause(Repo.New(UptimeMillis(c)), UptimeMillis(c0));
            var c1 := SetTime(c0, t1);
            Repo.Frame(s, UptimeMillis(c1)).timeMillis == t1 - t0 < 0
  {
  }
}

=== FILE: timer_repository.dfy ===
/**
 The shared stopwatch engine (`TimerRepository`). The clock is an explicit
 reading `now` passed to every transition, and the frame callback the update
 loop waits on is an explicit `Frame(now)` event. The coroutine that runs the
 loop is kept as two facts: the state of the job the engine last launched, and
 how many update loops are alive; a frame reaches the state only through a live
 loop.
 */
module TimerRepository {
  import opened StopwatchFormat

  /** The engine's handle on the coroutine it last launched (`job: Job?`). */
  datatype Job = NoJob | Active | Cancelled

  datatype Stopwatch = Stopwatch(
    started: bool,
    timeMillis: int,          // the elapsed time last published
    startUptimeMillis: int,   // the clock reading the elapsed time is measured from
    job: Job,
    liveLoops: nat            // update loops still running
  )

  /** What the engine can be asked to do, each at a clock reading. */
  datatype Event =
    | StartOrPauseAt(now: int)
    | ClearAt(now: int)
    | FrameAt(now: int)

  /** A freshly constructed engine: stopped at zero, measuring from the clock reading at construction. */
  function New(now: int): (s: Stopwatch)
    ensures !s.started && s.timeMillis == 0 && s.startUptimeMillis == now
    ensures s.liveLoops == 0
  {
    Stopwatch(false, 0, now, NoJob, 0)
  }

  /** The text the engine publishes for its elapsed time. */
  function Display(s: Stopwatch): string {
    Format(s.timeMillis)
  }

  /**
   `startOrPause`: a started engine stops and cancels the job it launched; a
   stopped one starts and launches a new loop, which first moves the reference
   reading back by the elapsed time so that counting resumes where it stopped.
   */
  function StartOrPause(s: Stopwatch, now: int): (r: Stopwatch)
    ensures r.started == !s.started
    ensures r.timeMillis == s.timeMillis
    ensures !s.started ==> r.startUptimeMillis == now - s.timeMillis && r.job == Active
    ensures s.started ==> r.startUptimeMillis == s.startUptimeMillis && r.job != Active
    ensures r.liveLoops > s.liveLoops <==> !s.started
  {
    if s.started then
      var job := if s.job == NoJob then NoJob else Cancelled;
      s.(started := false, job := job, liveLoops := if s.job == Active && s.liveLoops > 0 then s.liveLoops - 1 else s.liveLoops)
    else
      s.(started := true, startUptimeMillis := now - s.timeMillis, job := Active, liveLoops := s.liveLoops + 1)
  }

  /** One pass of the update loop: every live loop publishes the time since the reference reading. */
  function Frame(s: Stopwatch, now: int): (r: Stopwatch)
    ensures s.liveLoops > 0 ==> r.timeMillis == now - s.startUptimeMillis
    ensures r.started == s.started && r.startUptimeMillis == s.startUptimeMillis
    ensures s.liveLoops == 0 ==> r == s
  {
    if s.liveLoops > 0 then s.(timeMillis := now - s.startUptimeMillis) else s
  }

  /** `clear`: the elapsed time becomes zero, measured from `now`; running or not is untouched. */
  function Clear(s: Stopwatch, now: int): (r: Stopwatch)
    ensures r.timeMillis == 0 && r.startUptimeMillis == now
    ensures r.started == s.started && r.job == s.job && r.liveLoops == s.liveLoops
  {
    s.(timeMillis := 0, startUptimeMillis := now)
  }

  /** A new engine and a cleared one both show `00:00:00`. */
  lemma ZeroDisplays(s: Stopwatch, now: int)
    ensures Display(New(now)) == "00:00:00"
    ensures Display(Clear(s, now)) == "00:00:00"
  {
    ShowsZero(New(now).timeMillis);
    ShowsZero(Clear(s, now).timeMillis);
  }

  function Step(s: Stopwatch, e: Event): Stopwatch {
    match e
    case StartOrPauseAt(now) => StartOrPause(s, now)
    case ClearAt(now) => Clear(s, now)
    case FrameAt(now) => Frame(s, now)
  }

  /** The engine after handling `trace` in order. */
  function Run(s: Stopwatch, trace: seq<Event>): Stopwatch
    decreases |trace|
  {
    if trace == [] then s else Run(Step(s, trace[0]), trace[1..])
  }

  /**
   The engine's loop discipline: exactly one live update loop, the one it holds
   as its job, while started; none while stopped.
   */
  predicate Valid(s: Stopwatch) {
    && (s.job == Active <==> s.started)
    && s.liveLoops == (if s.started then 1 else 0)
  }

  lemma StepKeepsValid(s: Stopwatch, e: Event)
    requires Valid(s)
    ensures Valid(Step(s, e))
  {
  }

  /** Whatever happens to a fresh engine, it never runs two update loops at once nor one while stopped. */
  lemma {:induction false} RunKeepsValid(s: Stopwatch, trace: seq<Event>)
    requires Valid(s)
    ensures Valid(Run(s, trace))
    decreases |trace|
  {
    if trace != [] {
      StepKeepsValid(s, trace[0]);
      RunKeepsValid(Step(s, trace[0]), trace[1..]);
    }
  }

  /** A frame changes the engine exactly when it is started (and then only its elapsed time). */
  lemma FrameOnlyWhileStarted(s: Stopwatch, now: int)
    requires Valid(s)
    ensures !s.started ==> Frame(s, now) == s
    ensures s.started ==> Frame(s, now) == s.(timeMillis := now - s.startUptimeMillis)
  {
  }

  function CountToggles(trace: seq<Event>): nat
    decreases |trace|
  {
    if trace == [] then 0
    else (if trace[0].StartOrPauseAt? then 1 else 0) + CountToggles(trace[1..])
  }

  /**
   Only `startOrPause` moves the started flag, and each call flips it: after any
   trace the flag has flipped exactly when the trace toggles an odd number of times.
   */
  lemma {:induction false} StartedFollowsToggleParity(s: Stopwatch, trace: seq<Event>)
    ensures Run(s, trace).started == (s.started != (CountToggles(trace) % 2 == 1))
    decreases |trace|
  {
    if trace != [] {
      StartedFollowsToggleParity(Step(s, trace[0]), trace[1..]);
    }
  }

  /** From a fresh engine, N consecutive `startOrPause` calls leave it started iff N is odd. */
  lemma {:induction false} TogglesFromFresh(start: int, trace: seq<Event>)
    requires forall i :: 0 <= i < |trace| ==> trace[i].StartOrPauseAt?
    ensures Run(New(start), trace).started <==> |trace| % 2 == 1
  {
    StartedFollowsToggleParity(New(start), trace);
    AllTogglesCounted(trace);
  }

  lemma {:induction false} AllTogglesCounted(trace: seq<Event>)
    requires forall i :: 0 <= i < |trace| ==> trace[i].StartOrPauseAt?
    ensures CountToggles(trace) == |trace|
    decreases |trace|
  {
    if trace != [] {
      AllTogglesCounted(trace[1..]);
    }
  }

  /**
   Resume continuity: after a start at `t0`, a frame at `t1` shows the time
   accumulated before the start plus `t1 - t0`; at `t1 == t0` nothing jumps.
   */
  lemma ResumeContinuity(s: Stopwatch, t0: int, t1: int)
    requires Valid(s) && !s.started
    ensures Frame(StartOrPause(s, t0), t1).timeMillis == s.timeMillis + (t1 - t0)
    ensures Frame(StartOrPause(s, t0), t0) == StartOrPause(s, t0)
  {
  }

  /** Clearing a running engine keeps it running, counting from the instant of the clear. */
  lemma ClearWhileRunning(s: Stopwatch, t0: int, t1: int)
    requires Valid(s) && s.started
    ensures Frame(Clear(s, t0), t1).started
    ensures Frame(Clear(s, t0), t1).timeMillis == t1 - t0
  {
  }

  /**
   While stopped, only `clear` changes the elapsed time: across a trace without
   `startOrPause` a stopped engine stays stopped, and its elapsed time is zero if
   the trace clears and unchanged otherwise.
   */
  lemma {:induction false} StoppedOnlyClearChangesElapsed(s: Stopwatch, trace: seq<Event>)
    requires Valid(s) && !s.started
    requires forall i :: 0 <= i < |trace| ==> !trace[i].StartOrPauseAt?
    ensures !Run(s, trace).started
    ensures Run(s, trace).timeMillis == if exists i :: 0 <= i < |trace| && trace[i].ClearAt? then 0 else s.timeMillis
    decreases |trace|
  {
    if trace != [] {
      var s' := Step(s, trace[0]);
      StoppedOnlyClearChangesElapsed(s', trace[1..]);
      if exists i :: 0 <= i < |trace[1..]| && trace[1..][i].ClearAt? {
        var i :| 0 <= i < |trace[1..]| && trace[1..][i].ClearAt?;
        assert trace[i + 1].ClearAt?;
      }
      if exists i :: 0 <= i < |trace| && trace[i].ClearAt? {
        var i :| 0 <= i < |trace| && trace[i].ClearAt?;
        if i > 0 {
          assert trace[1..][i - 1].ClearAt?;
        }
      }
    }
  }

  function Stamp(e: Event): int {
    match e
    case StartOrPauseAt(now) => now
    case ClearAt(now) => now
    case FrameAt(now) => now
  }

  /** The events of `trace` arrive at clock readings that never go below `t` and never go back. */
  predicate ClockForward(t: int, trace: seq<Event>) {
    && (forall i :: 0 <= i < |trace| ==> t <= Stamp(trace[i]))
    && (forall i, j :: 0 <= i < j < |trace| ==> Stamp(trace[i]) <= Stamp(trace[j]))
  }

  /**
   The engine as last seen at clock reading `t`: loop discipline holds, the
   elapsed time is not negative, and while started it is exactly the time since
   the reference reading.
   */
  predicate AnchoredAt(s: Stopwatch, t: int) {
    && Valid(s)
    && s.timeMillis >= 0
    && (s.started ==> s.timeMillis == t - s.startUptimeMillis)
  }

  /** One event at a reading no earlier than the last keeps the engine anchored, and only `clear` lowers the time. */
  lemma StepKeepsAnchor(s: Stopwatch, t: int, e: Event)
    requires AnchoredAt(s, t) && t <= Stamp(e)
    ensures AnchoredAt(Step(s, e), Stamp(e))
    ensures !e.ClearAt? ==> Step(s, e).timeMillis >= s.timeMillis
  {
  }

  /**
   With a clock that never goes back, the elapsed time is never negative, and
   between clears it never decreases.
   */
  lemma {:induction false} ForwardClockKeepsAnchor(s: Stopwatch, t: int, trace: seq<Event>)
    requires AnchoredAt(s, t) && ClockForward(t, trace)
    ensures Run(s, trace).timeMillis >= 0
    ensures (forall i :: 0 <= i < |trace| ==> !trace[i].ClearAt?) ==> Run(s, trace).timeMillis >= s.timeMillis
    decreases |trace|
  {
    if trace != [] {
      StepKeepsAnchor(s, t, trace[0]);
      ForwardClockKeepsAnchor(Step(s, trace[0]), Stamp(trace[0]), trace[1..]);
    }
  }

  /** A fresh engine, driven by a clock that never goes back, never shows a negative time. */
  lemma FreshEngineNeverNegative(start: int, trace: seq<Event>)
    requires ClockForward(start, trace)
    ensures Run(New(start), trace).timeMillis >= 0
  {
    ForwardClockKeepsAnchor(New(start), start, trace);
  }
}
